=== FILE: README.md ===
# Dome collections in Dafny

This project models the core of the Dome C# collections library and proves
properties of it. The core is:

- `RingBuffer<T>`, a growable circular deque over one backing array. It is
  also exposed as a queue and as a stack, and has a version-checked enumerator.
- `PriorityQueue<TItem, TPriority>`, which keeps two index-aligned arrays
  sorted by priority.
- The helpers these are built on:
  - `ArrayUtils.ResizeAndInsert`, `ArrayUtils.Insert` and `ArrayUtils.GetEmpty`;
  - `ListUtils.LowerBoundSearch` and the `PeekLast`/`PopLast` family;
  - `MathUtils.Wrap`;
  - `CollectionUtils.CheckCopyToArguments`;
  - the reversed view `ListReverser<T>`.

How the model is built:

- **State.** Each container is an immutable datatype holding its private
  fields. Every operation is a function from the old state to the new state
  (or a method, where the source loop is kept as a loop).
- **Abstraction.** A ring buffer is specified through `Elements(b)`, the
  logical sequence it holds. Logical index `k` lives in physical slot
  `(startIndex + k) % Capacity`. A priority queue is specified through its
  occupied prefix `Stored(q)`, which is in ascending priority order, and
  `DequeueOrder(q)`, the same items back to front.
- **Exceptions.** A thrown exception is an `Err` value of `Common.Error`
  carrying the parameter name the source passes. A null reference is `None`.
- **Parameters for what C# supplies implicitly.**
  - `default(T)` is a parameter (`dflt`, `dItem`, `dPrio`).
  - `Comparer<T>.Default` is a parameter (`defaultComparer`).
  - A null `IEqualityComparer<T>` means Dafny equality.
- **Comparers.** A comparer is a function `(T, T) -> int`. Wherever ordering
  matters, the contract assumes the comparer laws of `Comparers.IsComparer`.
  The default and the reversed orders are both instances.
- **Arithmetic.**
  - C#'s truncating `%` is written out as `MathUtils.CsRem`.
  - The `unchecked(version + 1)` wrap-around of the 32-bit version counter
    is `Common.NextVersion`. That function always returns a value different
    from its argument.
- **Shifting.** `RingBuffer.Insert` and `RemoveAt` shift the tail of the
  logical sequence (RingBuffer.cs:278-286, 302-311).
- **Priority order.** With `Comparer<T>.Default` the greatest priority is
  dequeued first. Smallest-first needs a reversed comparer, as
  `PriorityQueues.ReversedComparerScenario` shows.

## Model

| member | source | states |
|---|---|---|
| MathUtils.CsRem | source/Dome/MathUtils.cs:19-21 | C#'s `%` for a positive divisor: the remainder has the sign of the dividend, lies strictly within the divisor, and differs from the dividend by a multiple of the divisor |
| MathUtils.Wrap | source/Dome/MathUtils.cs:14-24 | throws out-of-range on `length` exactly when `length < 1`; otherwise returns the mathematical modulus `value mod length` |
| MathUtils.WrapRangeAndCongruence | source/Dome/MathUtils.cs:19-23 | the result lies in `[0, length)` and is congruent to `value` modulo `length` |
| MathUtils.WrapInRange | source/Dome/MathUtils.cs:19-23 | a value already in `[0, length)` is returned unchanged |
| MathUtils.WrapIdempotent | source/Dome/MathUtils.cs:19-23 | wrapping a wrapped value changes nothing |
| MathUtils.WrapRingSteps | source/Dome/MathUtils.cs:19-23 | `Wrap(len, -1) == len - 1` and `Wrap(len, len) == 0` |
| MathUtils.WrapNeighbours | source/Dome/Collections/RingBuffer.cs:157 | for a slot `s` of the ring, `Wrap(len, s - 1)` and `Wrap(len, s + 1)` are the previous and next slots, wrapping at the ends |
| Common.NextVersion | source/Dome/Collections/RingBuffer.cs:44-47 | the 32-bit wrapping increment stays a 32-bit value, is `v + 1` below `int.MaxValue`, and never equals `v` |
| Common.ReverseOfSnoc | source/Dome/Collections/PriorityQueue.cs:98 | reversing `s + [x]` gives `[x]` followed by `s` reversed, so the last stored item is the first to leave |
| Comparers.ComparerIsTotalPreorder | source/Dome/Collections/ListUtils.cs:37-38 | a lawful comparer's `<= 0` relation is reflexive, transitive and total |
| Comparers.ReversedIsComparer | source/Dome/Collections/DescendingComparer.cs:13-19 | the reversed comparer is lawful and orders every pair the other way round |
| Comparers.IntCompare | source/Dome/Collections/PriorityQueue.cs:30 | the default integer comparer's sign is the sign of `x - y` |
| Comparers.IntCompareIsComparer | source/Dome/Collections/PriorityQueue.cs:30 | the default integer comparer obeys the comparer laws |
| Comparers.FirstMatch | source/Dome/Collections/RingBuffer.cs:218-232 | the first index whose item matches under the comparer (or equality when none), and -1 only when nothing matches |
| Comparers.FirstMatchUnique | source/Dome/Collections/RingBuffer.cs:223-231 | any index with "matches, and nothing earlier does" (or "-1 and nothing matches") is `FirstMatch` |
| CollectionUtils.CheckCopyToArgumentsNamed | source/Dome/Collections/CollectionUtils.cs:21-31 | passes exactly when the array is non-null, `arrayIndex >= 0` and `arrayIndex + count` fits; otherwise the first failing check, in source order, names the error (`array`, then the given parameter name, then the size) |
| CollectionUtils.CheckCopyToArguments | source/Dome/Collections/CollectionUtils.cs:42-45 | the same checks in the same order: a null array is `ArgumentNull("array")`, a negative index is out-of-range under the name `arrayIndex`, too small an array is `Argument("array")`, and it passes exactly when the items fit |
| ArrayUtils.GetEmpty | source/Dome/ArrayUtils.cs:36 | the result has length 0 |
| ArrayUtils.ResizeAndInsert | source/Dome/ArrayUtils.cs:49-69 | each of the four argument errors in source order; on success a `size`-long array with the prefix kept, `value` at `index`, the rest shifted up by one and default padding |
| ArrayUtils.Insert | source/Dome/ArrayUtils.cs:82-101 | each of the five argument errors in source order; on success the same length, prefix kept, `value` at `index`, `[index, count)` shifted up by one and everything past `count` untouched |
| ArrayUtils.InsertAgreesWithResizeAndInsert | source/Dome/ArrayUtils.cs:49-101 | on the first `count + 1` slots, inserting in place and inserting while growing give the same `a[..index] + [value] + a[index..count]` |
| ListUtils.LowerBoundLoop | source/Dome/Collections/ListUtils.cs:34-48 | the binary-search loop stays within its range and terminates. On a range sorted under a lawful comparer it returns the split point: items before it sort strictly below `value`, and no item from it on does |
| ListUtils.LowerBoundSearchImpl | source/Dome/Collections/ListUtils.cs:28-51 | a null comparer means the default one, and the result is the lower bound of `value` in `[index, index + length)` |
| ListUtils.LowerBoundSearchRange | source/Dome/Collections/ListUtils.cs:66-81 | null list, negative index, negative length and an overlong range throw in that order; otherwise the lower bound within `[index, index + length]` |
| ListUtils.LowerBoundSearch | source/Dome/Collections/ListUtils.cs:92-98 | null list throws; otherwise the lower bound of `value` in the whole list |
| ListUtils.WholeListIsFullRange | source/Dome/Collections/ListUtils.cs:92-98 | the whole-list overload equals the range overload on `[0, Count)` |
| ListUtils.SearchFindsTheSplitPoint | source/Dome/Collections/ListUtils.cs:28-51 | on a sorted range the search result is the unique split point, so it is the first occurrence of `value` or its insertion point |
| ListUtils.PeekLast | source/Dome/Collections/ListUtils.cs:108-118 | null throws argument-null, empty throws collection-is-empty, otherwise the last item |
| ListUtils.PopLast | source/Dome/Collections/ListUtils.cs:129-145 | the same errors; otherwise the remaining list followed by the returned item is the original list |
| ListUtils.TryPeekLast | source/Dome/Collections/ListUtils.cs:155-171 | null throws; empty gives `(false, default)`; otherwise `(true, last item)` |
| ListUtils.TryPopLast | source/Dome/Collections/ListUtils.cs:182-199 | null throws; empty gives `(false, default)` with the list unchanged; otherwise the remaining list followed by the item is the original |
| ListUtils.PopReturnsPeek | source/Dome/Collections/ListUtils.cs:108-199 | on a non-empty list all four forms agree on the last item |
| ListReversers.Reverse | source/Dome/Collections/ListUtils.cs:19-26 | null throws argument-null; otherwise a view over that very list |
| ListReversers.Get | source/Dome/Collections/ListReverser.cs:88-102 | throws out-of-range outside `[0, Count)`; otherwise `list[Count - 1 - index]` |
| ListReversers.EnumerateFrom | source/Dome/Collections/ListReverser.cs:77-80 | the loop from `i` down yields `list[i], list[i-1], ..., list[0]` |
| ListReversers.Enumerate | source/Dome/Collections/ListReverser.cs:74-81 | enumeration yields the list back to front |
| ListReversers.IndexerMatchesEnumeration | source/Dome/Collections/ListReverser.cs:74-102 | the indexer, the enumerator and `Count` describe the same sequence |
| ListReversers.EnumerateTwiceIsIdentity | source/Dome/Collections/ListReverser.cs:74-81 | reversing a reversed enumeration gives the original list |
| ListReversers.CopyTo | source/Dome/Collections/ListReverser.cs:61-72 | the `arrayIndex = 0` default is an explicit argument; fails exactly as the argument check does; otherwise `array[arrayIndex + i] == list[Count - 1 - i]`, other slots untouched, so the copied slice is the enumeration |
| ListReversers.Contains | source/Dome/Collections/ListReverser.cs:38-51 | true exactly when some item matches under the comparer (or equality when none), whichever direction it scans |
| ListReversers.Push | source/Dome/Collections/ListReverser.cs:19 | one more item, and the enumeration gains it at the front |
| ListReversers.Peek | source/Dome/Collections/ListReverser.cs:29 | empty throws; otherwise the item the indexer shows at 0 |
| ListReversers.Pop | source/Dome/Collections/ListReverser.cs:36 | empty throws; otherwise the popped item followed by the remaining enumeration is the old enumeration |
| ListReversers.TryPeek | source/Dome/Collections/ListReverser.cs:21 | `(false, default)` when empty; otherwise the item at view index 0 |
| ListReversers.TryPop | source/Dome/Collections/ListReverser.cs:22 | `(false, default)` with no change when empty; otherwise as `Pop` |
| ListReversers.Clear | source/Dome/Collections/ListReverser.cs:20 | the view becomes empty |
| ListReversers.PushThenPopIsIdentity | source/Dome/Collections/ListReverser.cs:19-36 | after a push, `Peek`, item 0, `Pop` and `TryPop` all see the pushed item, and popping restores the view |
| RingBuffers.SlotOffsetInverse | source/Dome/Collections/RingBuffer.cs:49-56 | the logical-to-physical slot map and its inverse are bijections on `[0, Capacity)` |
| RingBuffers.ToItemIndex | source/Dome/Collections/RingBuffer.cs:49-56 | `(startIndex + listIndex) % Capacity` with C#'s remainder is a slot of the array, the once-wrapped start plus offset |
| RingBuffers.New | source/Dome/Collections/RingBuffer.cs:23-35 | a negative capacity throws; otherwise a valid, empty buffer of exactly that capacity whose slots are all default |
| RingBuffers.IncrementCount | source/Dome/Collections/RingBuffer.cs:133-137 | one more item and a version different from the old one; array and start kept |
| RingBuffers.IncrementCountKeepsPrefix | source/Dome/Collections/RingBuffer.cs:133-137 | when there was room, the buffer stays valid and the old sequence is a prefix of the new one |
| RingBuffers.DecrementCount | source/Dome/Collections/RingBuffer.cs:292-296 | one item fewer and a version different from the old one; array and start kept |
| RingBuffers.DecrementCountDropsLast | source/Dome/Collections/RingBuffer.cs:292-296 | on a non-empty buffer the result is valid and its sequence is the old one without its last item |
| RingBuffers.SetItemBuffer | source/Dome/Collections/RingBuffer.cs:139-143 | adopts the given array with the start at slot 0; count and version kept |
| RingBuffers.SetItemBufferAdopts | source/Dome/Collections/RingBuffer.cs:139-143 | when the array holds at least `count` slots, the result is valid and its sequence is the array's first `count` slots |
| RingBuffers.CreateHigherCapacityItemBuffer | source/Dome/Collections/RingBuffer.cs:247-251 | an all-default array of capacity 4 when empty, otherwise twice the count, so strictly larger than the count |
| RingBuffers.CopyToLoop | source/Dome/Collections/RingBuffer.cs:240-244 | after the loop from `i` on, slots `[arrayIndex + i, arrayIndex + length)` hold the logical items in order and the rest are unchanged |
| RingBuffers.CopyToImpl | source/Dome/Collections/RingBuffer.cs:234-245 | the destination slice equals logical items `[index, index + length)`, and nothing else changes |
| RingBuffers.CopyTo | source/Dome/Collections/RingBuffer.cs:212-216 | the `arrayIndex = 0` default is an explicit argument; fails exactly as the argument check does; otherwise the destination slice is the whole logical sequence and other slots are untouched |
| RingBuffers.Get | source/Dome/Collections/RingBuffer.cs:65-75 | throws out-of-range outside `[0, count)`; otherwise logical item `index` |
| RingBuffers.Set | source/Dome/Collections/RingBuffer.cs:76-86 | throws out-of-range outside `[0, count)`; otherwise only logical item `index` changes, and capacity, count, start, version and the free slots stay |
| RingBuffers.SetThenGet | source/Dome/Collections/RingBuffer.cs:65-86 | after writing `value` at `index`, reading `index` gives `value` and reading any other index gives what it gave before |
| RingBuffers.AddLast | source/Dome/Collections/RingBuffer.cs:166-183 | the sequence becomes `s + [item]` and the version moves on. When not full the capacity and start stay; when full the capacity becomes 4 or twice the count, repacked from slot 0. Free slots stay default |
| RingBuffers.AddFirst | source/Dome/Collections/RingBuffer.cs:145-162 | the sequence becomes `[item] + s` and the version moves on. When not full the capacity stays; when full it grows as for `AddLast`, repacked from slot 0. Free slots stay default |
| RingBuffers.InsertShift | source/Dome/Collections/RingBuffer.cs:278-285 | the tail-shift loop moves logical items `[index, count)` up one slot. It leaves the hole at logical `index`, and every other slot is untouched |
| RingBuffers.Insert | source/Dome/Collections/RingBuffer.cs:259-290 | throws out-of-range unless `0 <= index <= count`. Otherwise the sequence becomes `s[..index] + [item] + s[index..]`, with the same growth rule as the adds, and the version moves on |
| RingBuffers.InsertGrown | source/Dome/Collections/RingBuffer.cs:267-275 | on a full buffer the sequence becomes `s[..index] + [item] + s[index..]` in an array of capacity 4 or twice the count, repacked from slot 0, with every free slot default and the version moved on |
| RingBuffers.InsertInPlace | source/Dome/Collections/RingBuffer.cs:276-290 | with room to spare the sequence becomes `s[..index] + [item] + s[index..]` in the same array with the same start, the version moves on, and free slots stay default |
| RingBuffers.RemoveShift | source/Dome/Collections/RingBuffer.cs:302-311 | the shift-down loop moves logical items `(index, count)` down one slot. Its last source slot is the old last slot, and every other slot is untouched |
| RingBuffers.RemoveAtImpl | source/Dome/Collections/RingBuffer.cs:298-316 | the sequence becomes `s[..index] + s[index + 1..]`, the vacated last slot is reset to default, capacity and start stay, and the version moves on |
| RingBuffers.RemoveAt | source/Dome/Collections/RingBuffer.cs:342-351 | throws out-of-range outside `[0, count)`; otherwise as `RemoveAtImpl` |
| RingBuffers.InsertThenRemoveAt | source/Dome/Collections/RingBuffer.cs:259-351 | after `Insert(index, item)` the indexer reads `item` at `index`, and `RemoveAt(index)` succeeds and gives back the previous sequence |
| RingBuffers.IndexOf | source/Dome/Collections/RingBuffer.cs:218-232 | the smallest logical index whose item matches, or -1 when none does |
| RingBuffers.Contains | source/Dome/Collections/RingBuffer.cs:197-202 | true exactly when some item matches |
| RingBuffers.Remove | source/Dome/Collections/RingBuffer.cs:318-335 | true exactly when some item matches, and then only the first match is removed; otherwise the buffer is unchanged |
| RingBuffers.Clear | source/Dome/Collections/RingBuffer.cs:185-195 | the sequence becomes empty and the previously occupied slots become default. Capacity and start stay, and the version moves on |
| RingBuffers.PeekFirst | source/Dome/Collections/RingBuffer.cs:353-359 | empty throws collection-is-empty; otherwise `s[0]` |
| RingBuffers.TryPeekFirst | source/Dome/Collections/RingBuffer.cs:361-373 | `(false, default)` when empty; otherwise `(true, s[0])` |
| RingBuffers.PeekLast | source/Dome/Collections/RingBuffer.cs:405-412 | empty throws; otherwise `s[count - 1]` |
| RingBuffers.TryPeekLast | source/Dome/Collections/RingBuffer.cs:414-427 | `(false, default)` when empty; otherwise `(true, s[count - 1])` |
| RingBuffers.PopFirstImpl | source/Dome/Collections/RingBuffer.cs:375-381 | returns `s[0]` and leaves `s[1..]`. The old start slot is reset to default, the start wraps forward, capacity stays and the version moves on |
| RingBuffers.StartMovedOn | source/Dome/Collections/RingBuffer.cs:377-380 | moving the start one slot on past a cleared slot drops the first item and keeps the free slots default |
| RingBuffers.PopFirst | source/Dome/Collections/RingBuffer.cs:105-109 | empty throws; otherwise the popped item followed by the rest is the old sequence, the capacity stays, the vacated start slot is reset to default and free slots stay default |
| RingBuffers.TryPopFirst | source/Dome/Collections/RingBuffer.cs:391-403 | `(false, default)` with no change when empty; otherwise as `PopFirst`: the item taken followed by the rest is the old sequence, the version moves on, the capacity stays, the vacated start slot is reset to default and free slots stay default |
| RingBuffers.PopLastImpl | source/Dome/Collections/RingBuffer.cs:429-435 | returns `s[count - 1]` and leaves `s[..count - 1]`. Its slot is reset to default, capacity and start stay, and the version moves on |
| RingBuffers.PopLast | source/Dome/Collections/RingBuffer.cs:127-131 | empty throws; otherwise the rest followed by the popped item is the old sequence, capacity and start stay, the vacated last slot is reset to default and free slots stay default |
| RingBuffers.AddLastThenPopLast | source/Dome/Collections/RingBuffer.cs:127-183 | `PopLast` after `AddLast(item)` succeeds, returns `item` and leaves the previous sequence |
| RingBuffers.TryPopLast | source/Dome/Collections/RingBuffer.cs:445-457 | `(false, default)` with no change when empty; otherwise as `PopLast`: the rest followed by the item taken is the old sequence, the version moves on, capacity and start stay, the vacated last slot is reset to default and free slots stay default |
| RingBuffers.GetEnumerator | source/Dome/Collections/RingBuffer.cs:459-474 | a fresh enumerator starts before the first item, bound to the current version, and yields exactly the logical sequence |
| RingBuffers.MoveNext | source/Dome/Collections/RingBuffer.cs:481-489 | throws contents-have-changed exactly when the captured version differs; otherwise steps on and reports whether an item remains |
| RingBuffers.Current | source/Dome/Collections/RingBuffer.cs:495-502 | the logical item at the cursor |
| RingBuffers.Reset | source/Dome/Collections/RingBuffer.cs:513-517 | the enumerator is a fresh one for the current version and again yields the whole sequence |
| RingBuffers.Drain | source/Dome/Collections/RingBuffer.cs:481-502 | running the enumerator to the end yields the rest of the logical sequence from the cursor on, or throws when the version changed |
| RingBuffers.MutationInvalidatesEnumerator | source/Dome/Collections/RingBuffer.cs:133-137 | after an add or pop at either end, an enumerator taken before it throws on `MoveNext` |
| RingBuffers.GrowThenPopScenario | source/Dome/Collections/RingBuffer.cs:166-183 | a capacity-2 buffer given 1, 2, 3 grows to capacity 4 holding `[1, 2, 3]`, and popping the front returns 1 leaving `[2, 3]` |
| RingBufferViews.Enqueue | source/Dome/Collections/RingBuffer.cs:522 | the item joins the back of the queue and the version moves on |
| RingBufferViews.QueuePeek | source/Dome/Collections/RingBuffer.cs:526-530 | empty throws; otherwise the oldest item |
| RingBufferViews.QueueTryPeek | source/Dome/Collections/RingBuffer.cs:523 | `(false, default)` when empty; otherwise the oldest item |
| RingBufferViews.Dequeue | source/Dome/Collections/RingBuffer.cs:532-536 | empty throws; otherwise takes the front item, the version moves on, the capacity stays, the vacated slot is reset to default and free slots stay default |
| RingBufferViews.TryDequeue | source/Dome/Collections/RingBuffer.cs:524 | `(false, default)` with no change when empty; otherwise as `Dequeue` |
| RingBufferViews.Push | source/Dome/Collections/RingBuffer.cs:538 | the item goes on top, at the front, and the version moves on |
| RingBufferViews.StackPeek | source/Dome/Collections/RingBuffer.cs:542-546 | empty throws; otherwise the top item |
| RingBufferViews.StackTryPeek | source/Dome/Collections/RingBuffer.cs:539 | `(false, default)` when empty; otherwise the top item |
| RingBufferViews.Pop | source/Dome/Collections/RingBuffer.cs:548-552 | empty throws; otherwise takes the top item, the version moves on, the capacity stays, the vacated slot is reset to default and free slots stay default |
| RingBufferViews.TryPop | source/Dome/Collections/RingBuffer.cs:540 | `(false, default)` with no change when empty; otherwise as `Pop` |
| RingBufferViews.EnqueueAll | source/Dome/Collections/RingBuffer.cs:522 | enqueueing a sequence appends it in order |
| RingBufferViews.PushAll | source/Dome/Collections/RingBuffer.cs:538 | pushing a sequence puts it on top in reverse order |
| RingBufferViews.DequeueAll | source/Dome/Collections/RingBuffer.cs:532-536 | dequeuing until empty returns the logical sequence front to back |
| RingBufferViews.PopAll | source/Dome/Collections/RingBuffer.cs:548-552 | popping until empty returns the logical sequence front to back |
| RingBufferViews.QueueIsFirstInFirstOut | source/Dome/Collections/RingBuffer.cs:522-536 | an empty queue given `xs` hands them out in the same order |
| RingBufferViews.StackIsLastInFirstOut | source/Dome/Collections/RingBuffer.cs:538-552 | an empty stack given `xs` hands them out reversed |
| RingBufferViews.PushThenPop | source/Dome/Collections/RingBuffer.cs:538-552 | a push then a pop returns the pushed item and the previous contents |
| PriorityQueues.New | source/Dome/Collections/PriorityQueue.cs:25-42 | a negative capacity throws out-of-range. Otherwise the queue is valid and empty with exactly that capacity, a null comparer becomes the default one, and the arrays are sorted and all default |
| PriorityQueues.EnqueueIndex | source/Dome/Collections/PriorityQueue.cs:73 | the insertion index lies in `[0, count]` and, on sorted contents, is the lower bound of the new priority |
| PriorityQueues.Enqueue | source/Dome/Collections/PriorityQueue.cs:71-89 | one entry is inserted into both arrays at the lower-bound index, so the pairs stay aligned; count and version move on. The capacity becomes 4 or twice the count only when full. Sortedness and default free slots are kept |
| PriorityQueues.InsertedInPlace | source/Dome/Collections/PriorityQueue.cs:78-84 | the element-wise effect of the two inserts is `old[..i] + [x] + old[i..]` on both occupied prefixes |
| PriorityQueues.InsertionKeepsOrder | source/Dome/Collections/PriorityQueue.cs:73-85 | inserting a priority at its lower bound keeps a sorted prefix sorted |
| PriorityQueues.EnqueueDefault | source/Dome/Collections/PriorityQueue.cs:91-94 | `IQueue.Enqueue(item)` inserts the item, and `default(TPriority)` beside it, at that priority's lower bound; the version moves on, the comparer stays and a sorted queue stays sorted |
| PriorityQueues.DequeueImpl | source/Dome/Collections/PriorityQueue.cs:96-107 | returns the top slot's item and drops it from both prefixes, resetting both slots to default. Capacity stays, the version moves on, and the rest of the dequeue order is kept |
| PriorityQueues.SortedFrontIsGreatest | source/Dome/Collections/PriorityQueue.cs:98-99 | on sorted contents the top slot's priority is not below any other |
| PriorityQueues.Dequeue | source/Dome/Collections/PriorityQueue.cs:114-121 | empty throws collection-is-empty. Otherwise it takes the first item of the dequeue order, which has the greatest priority, and keeps the rest sorted |
| PriorityQueues.TryDequeue | source/Dome/Collections/PriorityQueue.cs:128-140 | `(false, default)` with no change when empty; otherwise as `Dequeue`: the item taken comes off the front of the dequeue order, the version moves on, and on a sorted queue under a lawful comparer the item has the greatest priority and the rest stays sorted |
| PriorityQueues.Peek | source/Dome/Collections/PriorityQueue.cs:147-155 | empty throws; otherwise the first item of the dequeue order |
| PriorityQueues.TryPeek | source/Dome/Collections/PriorityQueue.cs:162-175 | `(false, default)` when empty; otherwise the first item of the dequeue order |
| PriorityQueues.PeekIsWhatDequeueTakes | source/Dome/Collections/PriorityQueue.cs:114-175 | `Peek`, `TryPeek` and `Dequeue` agree on the front item |
| PriorityQueues.Clear | source/Dome/Collections/PriorityQueue.cs:180-187 | count becomes 0 and the occupied slots of both arrays become default. The other slots, the capacity and the comparer stay, and the version moves on |
| PriorityQueues.DequeueAll | source/Dome/Collections/PriorityQueue.cs:114-121 | dequeuing until empty returns the stored items back to front |
| PriorityQueues.GetEnumerator | source/Dome/Collections/PriorityQueue.cs:194-209 | a fresh enumerator starts at `count` with the current version and yields the items in dequeue order |
| PriorityQueues.MoveNext | source/Dome/Collections/PriorityQueue.cs:216-224 | throws contents-have-changed exactly when the version differs; otherwise steps down and reports whether it is still at an item |
| PriorityQueues.Current | source/Dome/Collections/PriorityQueue.cs:230 | the stored item at the cursor |
| PriorityQueues.Reset | source/Dome/Collections/PriorityQueue.cs:244-248 | back to a fresh enumerator for the current version, which again yields the dequeue order |
| PriorityQueues.Drain | source/Dome/Collections/PriorityQueue.cs:216-230 | running the enumerator to the end yields the stored items below the cursor in reverse, or throws when the version changed |
| PriorityQueues.EnumerationMatchesDequeues | source/Dome/Collections/PriorityQueue.cs:196 | enumerating a queue yields exactly what dequeuing it all returns |
| PriorityQueues.MutationInvalidatesEnumerator | source/Dome/Collections/PriorityQueue.cs:189-192 | after `Enqueue`, `Clear` or a dequeue, an enumerator taken before it throws on `MoveNext` |
| PriorityQueues.EnqueuePosition | source/Dome/Collections/PriorityQueue.cs:73-85 | a new item sits above every entry with a lower priority and below every entry with a priority not lower. It therefore leaves after all earlier items of equal priority (first in, first out among equals) |
| PriorityQueues.ReversedComparerScenario | source/Dome/Collections/PriorityQueue.cs:71-121 | with a reversed integer comparer, `a`@5, `b`@1, `c`@3 dequeue as `b`, `c`, `a` |
| PriorityQueues.ScenarioSecondIndex | source/Dome/Collections/PriorityQueue.cs:73 | under the reversed comparer, priority 1 goes above an entry of priority 5 |
| PriorityQueues.ScenarioThirdIndex | source/Dome/Collections/PriorityQueue.cs:73 | under the reversed comparer, priority 3 goes between entries of priorities 5 and 1 |

## Left out

- Int32 overflow of `index + length` (ListUtils.cs:77), `arrayIndex + count` (CollectionUtils.cs:29), `value + length` (MathUtils.cs:20), `startIndex + listIndex` (RingBuffer.cs:54, which can exceed `int.MaxValue` once the capacity passes 2^30) and `count * 2` (RingBuffer.cs:249, PriorityQueue.cs:76). The model uses unbounded integers, so these sums never overflow.
- The lazily initialised `EmptyArray<T>` cache behind `ArrayUtils.GetEmpty` uses memory barriers and `Interlocked`. Only the result, an empty array, is modelled.
- Aliasing: `ListReverser<T>` is a live view over a caller's `List<T>`, and later changes to that list show through it. The model holds the list by value.
- `ListReverser.Equals` and `GetHashCode` compare by reference identity, which has no counterpart in a value model.
- `Dispose`, the non-generic `IEnumerator.Current` and `ICollection.IsReadOnly` do nothing of interest.
- The explicit `IList`/`ICollection` members `IndexOf`, `Add`, `Remove` and `Contains` are the modelled operations with a null comparer.
- `Capacity`, `Count` and `PriorityComparer` are read as fields of the state. `ListReversers.Count` (ListReverser.cs:18) is the underlying list's length, used inside the other contracts.
- RingBuffers.Current: requires `0 <= index < count`. The source's debug assertion also admits `index == count`, which is misuse (after `MoveNext` returned false) and divides by zero on a zero-capacity buffer.
- PriorityQueues.Current: requires `0 <= index < count`. Reading before the first `MoveNext` or after it returned false is documented as undefined.
- RingBuffers.MoveNext / Current / Reset: the enumerator is always bound to a buffer. The `NullReferenceException` that a `default(RingBuffer<T>.Enumerator)`, whose buffer is null, would throw is not modelled.
- ListUtils.PopLast / TryPopLast: the list is assumed resizable. `IList<T>.RemoveAt` throws `NotSupportedException` on a fixed-size list such as an array (ListUtils.cs:128, 181), and that outcome is not modelled.
- Garbage collection is the only reason the source clears vacated slots. The model keeps the clearing as "slot set to default", tracked by the `Clean` invariants.
- The constructors with fewer arguments: `RingBuffer()` and `PriorityQueue()` are `New` with capacity 0 and a null comparer; `PriorityQueue(comparer)` is `New` with capacity 0 and that comparer.
- `Singleton`, `WeakReferenceUtils`, `ListWrapper`, `QueueWrapper`, `StackWrapper`, `ExceptionMessages` and the interface files are not part of this model. They are wrappers over framework types, runtime plumbing, or declarations only.
- `DescendingComparer<T>` is not modelled as a class. It is the reversed comparer, `Comparers.Reversed`.

=== FILE: array_utils.dfy ===
/** `ArrayUtils`: the two array-shifting primitives the priority queue grows
    and inserts with, and the empty array the containers start from. Arrays are
    sequences; an operation that replaces the caller's array returns the new one. */
module ArrayUtils {
  import opened Common

  /** `GetEmpty<T>()`: an array of length 0 (the cached instance is not modelled). */
  function GetEmpty<T>(): (r: seq<T>)
    ensures |r| == 0
  {
    []
  }

  /** `ResizeAndInsert(ref array, size, index, value)`: a new array of length
      `size` holding the old items with `value` placed at `index`; slots past
      the copied items hold `dflt`, C#'s `default(T)`. */
  function ResizeAndInsert<T>(arr: Option<seq<T>>, size: int, index: int, value: T, dflt: T): (r: Result<seq<T>>)
    ensures r.Ok? <==> arr.Some? && size > |arr.value| && 0 <= index <= |arr.value|
    ensures arr.None? ==> r == Err(ArgumentNull("array"))
    ensures arr.Some? && size <= |arr.value| ==> r == Err(Argument("size"))
    ensures arr.Some? && size > |arr.value| && index < 0 ==> r == Err(ArgumentOutOfRange("index"))
    ensures arr.Some? && size > |arr.value| && index > |arr.value| ==> r == Err(Argument("index"))
    ensures r.Ok? ==> |r.value| == size
    ensures r.Ok? ==> forall k :: 0 <= k < index ==> r.value[k] == arr.value[k]
    ensures r.Ok? ==> r.value[index] == value
    ensures r.Ok? ==> forall k :: index < k <= |arr.value| ==> r.value[k] == arr.value[k - 1]
    ensures r.Ok? ==> forall k :: |arr.value| < k < size ==> r.value[k] == dflt
  {
    if arr.None? then
      Err(ArgumentNull("array"))
    else if size <= |arr.value| then
      Err(Argument("size"))
    else if index < 0 then
      Err(ArgumentOutOfRange("index"))
    else if index > |arr.value| then
      Err(Argument("index"))
    else
      var a := arr.value;
      var grown := seq(size, _ => dflt);
      var grown := a[..index] + grown[index..];
      var grown := grown[..index + 1] + a[index..] + grown[|a| + 1..];
      Ok(grown[index := value])
  }

  /** `Insert(array, count, index, value)`: shifts the used prefix `[index, count)`
      one slot up inside the same array and writes `value` at `index`. */
  function Insert<T>(arr: Option<seq<T>>, count: int, index: int, value: T): (r: Result<seq<T>>)
    ensures r.Ok? <==> arr.Some? && 0 <= count < |arr.value| && 0 <= index <= count
    ensures arr.None? ==> r == Err(ArgumentNull("array"))
    ensures arr.Some? && count < 0 ==> r == Err(ArgumentOutOfRange("count"))
    ensures arr.Some? && 0 <= count && count >= |arr.value| ==> r == Err(Argument("count"))
    ensures arr.Some? && 0 <= count < |arr.value| && index < 0 ==> r == Err(ArgumentOutOfRange("index"))
    ensures arr.Some? && 0 <= count < |arr.value| && index > count ==> r == Err(Argument("index"))
    ensures r.Ok? ==> |r.value| == |arr.value|
    ensures r.Ok? ==> forall k :: 0 <= k < index ==> r.value[k] == arr.value[k]
    ensures r.Ok? ==> r.value[index] == value
    ensures r.Ok? ==> forall k :: index < k <= count ==> r.value[k] == arr.value[k - 1]
    ensures r.Ok? ==> forall k :: count < k < |arr.value| ==> r.value[k] == arr.value[k]
  {
    if arr.None? then
      Err(ArgumentNull("array"))
    else if count < 0 then
      Err(ArgumentOutOfRange("count"))
    else if count >= |arr.value| then
      Err(Argument("count"))
    else if index < 0 then
      Err(ArgumentOutOfRange("index"))
    else if index > count then
      Err(Argument("index"))
    else
      var a := arr.value;
      var shifted := a[..index + 1] + a[index..count] + a[count + 1..];
      Ok(shifted[index := value])
  }

  /** The two primitives agree on the used prefix: inserting in place and
      inserting while growing both give `a[..index] + [value] + a[index..count]`. */
  lemma InsertAgreesWithResizeAndInsert<T>(a: seq<T>, count: int, size: int, index: int, value: T, dflt: T)
    requires 0 <= count < |a| && 0 <= index <= count && size > count
    ensures var inPlace := Insert(Some(a), count, index, value).value;
            var grown := ResizeAndInsert(Some(a[..count]), size, index, value, dflt).value;
            && inPlace[..count + 1] == a[..index] + [value] + a[index..count]
            && grown[..count + 1] == a[..index] + [value] + a[index..count]
  {
    var inPlace := Insert(Some(a), count, index, value).value;
    var grown := ResizeAndInsert(Some(a[..count]), size, index, value, dflt).value;
    var expected := a[..index] + [value] + a[index..count];
    forall k | 0 <= k <= count ensures inPlace[k] == expected[k] && grown[k] == expected[k] {
      if k < index {
      } else if k == index {
      } else {
        assert expected[k] == a[k - 1];
      }
    }
  }
}

=== FILE: collection_utils.dfy ===
/** `CollectionUtils.CheckCopyToArguments`: the validation every `CopyTo`
    performs before writing into the caller's array. */
module CollectionUtils {
  import opened Common

  /** True when `count` items fit into the array `arr` from `arrayIndex` on. */
  predicate CopyFits<T>(arr: seq<T>, arrayIndex: int, count: int) {
    0 <= arrayIndex && arrayIndex + count <= |arr|
  }

  /** The overload that names the index parameter in its exception. The three
      checks run in order: null array, negative index, too small an array. */
  function CheckCopyToArgumentsNamed<T>(arr: Option<seq<T>>, arrayIndex: int, count: int,
                                        arrayIndexParameterName: string): (r: Outcome)
    ensures r.Pass? <==> arr.Some? && CopyFits(arr.value, arrayIndex, count)
    ensures arr.None? ==> r == Fail(ArgumentNull("array"))
    ensures arr.Some? && arrayIndex < 0 ==> r == Fail(ArgumentOutOfRange(arrayIndexParameterName))
    ensures arr.Some? && arrayIndex >= 0 && arrayIndex + count > |arr.value| ==> r == Fail(Argument("array"))
  {
    if arr.None? then
      Fail(ArgumentNull("array"))
    else if arrayIndex < 0 then
      Fail(ArgumentOutOfRange(arrayIndexParameterName))
    else if arrayIndex + count > |arr.value| then
      Fail(Argument("array"))
    else
      Pass
  }

  /** The overload that reports a bad index as parameter `arrayIndex`. */
  function CheckCopyToArguments<T>(arr: Option<seq<T>>, arrayIndex: int, count: int): (r: Outcome)
    ensures r.Pass? <==> arr.Some? && CopyFits(arr.value, arrayIndex, count)
    ensures arr.None? ==> r == Fail(ArgumentNull("array"))
    ensures arr.Some? && arrayIndex < 0 ==> r == Fail(ArgumentOutOfRange("arrayIndex"))
    ensures arr.Some? && arrayIndex >= 0 && arrayIndex + count > |arr.value| ==> r == Fail(Argument("array"))
    ensures r.Fail? && r.error.ArgumentOutOfRange? ==> r.error.paramName == "arrayIndex"
  {
    CheckCopyToArgumentsNamed(arr, arrayIndex, count, "arrayIndex")
  }
}

=== FILE: common.dfy ===
/** Shared vocabulary: C# null references, the exceptions the collections throw,
    and the success-or-exception results every operation returns. */
module Common {

  /** A reference that may be null: `None` stands for C#'s `null`. */
  datatype Option<+T> = None | Some(value: T)

  /** The exceptions thrown by the modelled code, by .NET exception class.
      `paramName` is the parameter name the exception carries; `subject` names
      what the message of an `ArgumentException` complains about. */
  datatype Error =
    | ArgumentNull(paramName: string)
    | ArgumentOutOfRange(paramName: string)
    | Argument(subject: string)
      /** `InvalidOperationException` with the "collection is empty" message. */
    | CollectionIsEmpty
      /** `InvalidOperationException` with the "contents have changed" message. */
    | CollectionContentsHaveChanged

  /** Either the value an operation returns or the exception it throws. */
  datatype Result<+T> = Ok(value: T) | Err(error: Error)

  /** The result of an operation that returns nothing but may throw. */
  datatype Outcome = Pass | Fail(error: Error)

  /** `unchecked(version + 1)` on a 32-bit `int`: the successor, wrapping from
      `int.MaxValue` to `int.MinValue`. It always differs from its argument,
      which is all that enumerators rely on. */
  function NextVersion(v: int): (r: int)
    ensures r != v
    ensures -0x8000_0000 <= v <= 0x7fff_ffff ==> -0x8000_0000 <= r <= 0x7fff_ffff
    ensures v < 0x7fff_ffff ==> r == v + 1
  {
    if v == 0x7fff_ffff then -0x8000_0000 else v + 1
  }

  /** `s` back to front. */
  function ReverseSeq<T>(s: seq<T>): (r: seq<T>)
    ensures |r| == |s|
    ensures forall k :: 0 <= k < |s| ==> r[k] == s[|s| - 1 - k]
  {
    if |s| == 0 then [] else ReverseSeq(s[1..]) + [s[0]]
  }

  /** Reversing a non-empty sequence puts its first item last, so putting
      `xs[0]` in front of `tail` and then the rest of `xs` reversed in front
      of that gives all of `xs` reversed in front of `tail`. */
  lemma ReverseSeqSnoc<T>(xs: seq<T>, tail: seq<T>)
    requires |xs| > 0
    ensures ReverseSeq(xs[1..]) + ([xs[0]] + tail) == ReverseSeq(xs) + tail
  {
    ConcatAssociates(ReverseSeq(xs[1..]), [xs[0]], tail);
  }

  lemma ConcatAssociates<T>(a: seq<T>, b: seq<T>, c: seq<T>)
    ensures a + (b + c) == (a + b) + c
  {
  }

  /** Reversing a sequence with one item appended puts that item first. */
  lemma ReverseOfSnoc<T>(s: seq<T>, x: T)
    ensures ReverseSeq(s + [x]) == [x] + ReverseSeq(s)
  {
    assert ReverseSeq(s + [x])[0] == x;
    assert forall k :: 0 < k <= |s| ==> ReverseSeq(s + [x])[k] == (s + [x])[|s| - k];
  }

  /** Taking out the item just put in at `index` gives back the original. */
  lemma SpliceOutUndoesSpliceIn<T>(s: seq<T>, index: int, item: T, t: seq<T>)
    requires 0 <= index <= |s| && t == s[..index] + [item] + s[index..]
    ensures t[index] == item && t[..index] + t[index + 1..] == s
  {
    assert t[..index] == s[..index];
    assert t[index + 1..] == s[index..];
  }

  /** The capacity a full `RingBuffer` or `PriorityQueue` grows to: 4 from
      empty, otherwise double the count. */
  function GrownCapacity(count: int): int {
    if count == 0 then 4 else count * 2
  }
}

=== FILE: comparers.dfy ===
/** `IComparer<T>` and `IEqualityComparer<T>` as plain functions, and the laws a
    well-behaved comparer obeys. */
module Comparers {
  import opened Common

  /** `cmp(x, y)` is negative, zero or positive as `x` sorts before, with or
      after `y`, like `IComparer<T>.Compare`. */
  type Comparison<!T> = (T, T) -> int

  /** The contract of `IComparer<T>`: every item compares equal to itself, the
      sign flips when the arguments are swapped, and "sorts no later than" is
      transitive. Such a comparer orders `T` as a total preorder. */
  ghost predicate IsComparer<T(!new)>(cmp: Comparison<T>) {
    && (forall x :: cmp(x, x) == 0)
    && (forall x, y :: cmp(x, y) > 0 <==> cmp(y, x) < 0)
    && (forall x, y, z :: cmp(x, y) <= 0 && cmp(y, z) <= 0 ==> cmp(x, z) <= 0)
  }

  /** The order relation a comparer induces. */
  predicate NoLater<T>(cmp: Comparison<T>, x: T, y: T) {
    cmp(x, y) <= 0
  }

  /** A lawful comparer induces a reflexive, transitive and total relation. */
  lemma ComparerIsTotalPreorder<T(!new)>(cmp: Comparison<T>)
    requires IsComparer(cmp)
    ensures forall x :: NoLater(cmp, x, x)
    ensures forall x, y, z :: NoLater(cmp, x, y) && NoLater(cmp, y, z) ==> NoLater(cmp, x, z)
    ensures forall x, y :: NoLater(cmp, x, y) || NoLater(cmp, y, x)
  {
    forall x, y ensures NoLater(cmp, x, y) || NoLater(cmp, y, x) {
      if cmp(x, y) > 0 {
        assert cmp(y, x) < 0;
      }
    }
  }

  /** The comparer that orders the other way round, as `DescendingComparer<T>`
      does for the natural order. */
  function Reversed<T>(cmp: Comparison<T>): Comparison<T> {
    (x: T, y: T) => cmp(y, x)
  }

  lemma ReversedIsComparer<T(!new)>(cmp: Comparison<T>)
    requires IsComparer(cmp)
    ensures IsComparer(Reversed(cmp))
    ensures forall x, y :: NoLater(Reversed(cmp), x, y) <==> NoLater(cmp, y, x)
  {
  }

  /** `Comparer<int>.Default`: the natural order of the integers. */
  function IntCompare(x: int, y: int): (r: int)
    ensures r < 0 <==> x < y
    ensures r == 0 <==> x == y
    ensures r > 0 <==> x > y
  {
    if x < y then -1 else if x > y then 1 else 0
  }

  lemma IntCompareIsComparer()
    ensures IsComparer(IntCompare)
  {
  }

  /** An `IEqualityComparer<T>.Equals`, or `None` for the default equality. */
  type Equality<!T> = (T, T) -> bool

  /** `EqualityComparer<T>.Default`, modelled as Dafny's equality on `T`. */
  function DefaultEquality<T(==, !new)>(): (eq: Equality<T>)
    ensures forall x, y :: eq(x, y) <==> x == y
  {
    (x: T, y: T) => x == y
  }

  /** Whether `comparer`, or the default equality when it is null, matches
      `item` against `x`. */
  predicate Matches<T(==)>(comparer: Option<Equality<T>>, item: T, x: T) {
    if comparer.Some? then comparer.value(item, x) else item == x
  }

  /** The first index of `s` whose item matches `item`, or -1: the reference
      for every front-to-back linear search. */
  function FirstMatch<T(==)>(s: seq<T>, item: T, comparer: Option<Equality<T>>): (r: int)
    ensures -1 <= r < |s|
    ensures r >= 0 ==> Matches(comparer, item, s[r])
    ensures forall k :: 0 <= k < |s| && (r < 0 || k < r) ==> !Matches(comparer, item, s[k])
  {
    if |s| == 0 then
      -1
    else if Matches(comparer, item, s[0]) then
      0
    else
      var r := FirstMatch(s[1..], item, comparer);
      if r < 0 then -1 else r + 1
  }

  /** Any index with `FirstMatch`'s properties is `FirstMatch`. */
  lemma FirstMatchUnique<T>(s: seq<T>, item: T, comparer: Option<Equality<T>>, r: int)
    requires -1 <= r < |s|
    requires r >= 0 ==> Matches(comparer, item, s[r])
    requires forall k :: 0 <= k < |s| && (r < 0 || k < r) ==> !Matches(comparer, item, s[k])
    ensures r == FirstMatch(s, item, comparer)
  {
    var f := FirstMatch(s, item, comparer);
    assert f >= 0 && (r < 0 || f < r) ==> MatchesAt(s, f, item, comparer) && !MatchesAt(s, f, item, comparer);
    assert r >= 0 && (f < 0 || r < f) ==> MatchesAt(s, r, item, comparer) && !MatchesAt(s, r, item, comparer);
  }

  ghost predicate MatchesAt<T>(s: seq<T>, k: int, item: T, comparer: Option<Equality<T>>) {
    0 <= k < |s| && Matches(comparer, item, s[k])
  }
}

=== FILE: list_reverser.dfy ===
/** `ListReverser<T>`: a read-and-stack view of a list in reverse order. Index 0
    of the view is the last item of the list, and the view's stack top is the
    list's end. */
module ListReversers {
  import opened Common
  import opened Comparers
  import ListUtils
  import CollectionUtils

  datatype ListReverser<T> = ListReverser(list: seq<T>)

  /** `ListUtils.Reverse(list)`: the reversed view of a non-null list. */
  function Reverse<T>(list: Option<seq<T>>): (r: Result<ListReverser<T>>)
    ensures r.Ok? <==> list.Some?
    ensures list.None? ==> r == Err(ArgumentNull("list"))
    ensures r.Ok? ==> r.value.list == list.value
  {
    if list.None? then Err(ArgumentNull("list")) else Ok(ListReverser(list.value))
  }

  /** The view's item count, the underlying list's. */
  function Count<T>(v: ListReverser<T>): nat {
    |v.list|
  }

  /** The read-only indexer. */
  function Get<T>(v: ListReverser<T>, index: int): (r: Result<T>)
    ensures r.Ok? <==> 0 <= index < Count(v)
    ensures r.Err? ==> r.error == ArgumentOutOfRange("index")
    ensures r.Ok? ==> r.value == v.list[Count(v) - 1 - index]
  {
    if index < 0 then
      Err(ArgumentOutOfRange("index"))
    else
      var count := |v.list|;
      if index >= count then
        Err(ArgumentOutOfRange("index"))
      else
        var listIndex := count - index - 1;
        Ok(v.list[listIndex])
  }

  /** The items the enumerator's `for (i = Count - 1; i >= 0; --i)` loop yields
      from `i` down: `list[i], list[i - 1], ..., list[0]`. */
  function EnumerateFrom<T>(list: seq<T>, i: int): (r: seq<T>)
    requires -1 <= i < |list|
    ensures |r| == i + 1
    ensures forall k :: 0 <= k <= i ==> r[k] == list[i - k]
    decreases i + 1
  {
    if i < 0 then [] else [list[i]] + EnumerateFrom(list, i - 1)
  }

  /** `GetEnumerator()`: the list back to front. */
  function Enumerate<T>(v: ListReverser<T>): (r: seq<T>)
    ensures |r| == Count(v)
    ensures forall k :: 0 <= k < |r| ==> r[k] == v.list[|v.list| - 1 - k]
  {
    EnumerateFrom(v.list, |v.list| - 1)
  }

  /** The indexer, the enumeration and `Count` describe the same sequence. */
  lemma IndexerMatchesEnumeration<T>(v: ListReverser<T>, index: int)
    requires 0 <= index < Count(v)
    ensures Get(v, index) == Ok(Enumerate(v)[index])
    ensures |Enumerate(v)| == Count(v)
  {
  }

  /** Enumerating the view of an enumerated view gives the list back. */
  lemma {:induction false} EnumerateTwiceIsIdentity<T>(list: seq<T>)
    ensures Enumerate(ListReverser(Enumerate(ListReverser(list)))) == list
  {
    var once := Enumerate(ListReverser(list));
    var twice := Enumerate(ListReverser(once));
    assert |twice| == |list|;
    forall k | 0 <= k < |list| ensures twice[k] == list[k] {
      assert twice[k] == once[|once| - 1 - k];
    }
  }

  /** `CopyTo(array, arrayIndex)`: validates the destination, then writes the
      items in reverse order from `arrayIndex` on; other slots are untouched. */
  method CopyTo<T>(v: ListReverser<T>, arr: Option<seq<T>>, arrayIndex: int) returns (r: Result<seq<T>>)
    ensures r.Ok? <==> CollectionUtils.CheckCopyToArguments(arr, arrayIndex, Count(v)).Pass?
    ensures r.Err? ==> r.error == CollectionUtils.CheckCopyToArguments(arr, arrayIndex, Count(v)).error
    ensures r.Ok? ==> |r.value| == |arr.value|
    ensures r.Ok? ==> forall p :: arrayIndex <= p < arrayIndex + Count(v) ==>
                        r.value[p] == v.list[Count(v) - 1 - (p - arrayIndex)]
    ensures r.Ok? ==> forall p :: 0 <= p < |arr.value| && !(arrayIndex <= p < arrayIndex + Count(v)) ==>
                        r.value[p] == arr.value[p]
    ensures r.Ok? ==> r.value[arrayIndex..arrayIndex + Count(v)] == Enumerate(v)
  {
    var count := |v.list|;
    var check := CollectionUtils.CheckCopyToArguments(arr, arrayIndex, count);
    if check.Fail? {
      return Err(check.error);
    }
    var a := arr.value;
    var i := 0;
    while i < count
      invariant 0 <= i <= count
      invariant |a| == |arr.value|
      invariant forall p :: arrayIndex <= p < arrayIndex + i ==> a[p] == v.list[count - 1 - (p - arrayIndex)]
      invariant forall p :: 0 <= p < |a| && !(arrayIndex <= p < arrayIndex + i) ==> a[p] == arr.value[p]
    {
      var listIndex := count - i - 1;
      a := a[i + arrayIndex := v.list[listIndex]];
      i := i + 1;
    }
    assert a[arrayIndex..arrayIndex + count] == Enumerate(v);
    return Ok(a);
  }

  /** `Contains(item, comparer)`: the default equality delegates to the list;
      a custom comparer scans from the end. Either way the answer is whether
      some item matches. */
  method Contains<T(==)>(v: ListReverser<T>, item: T, comparer: Option<Equality<T>>) returns (found: bool)
    ensures found <==> exists k :: 0 <= k < |v.list| && Matches(comparer, item, v.list[k])
  {
    if comparer.None? {
      return item in v.list;
    }
    var i := |v.list| - 1;
    while i >= 0
      invariant -1 <= i < |v.list|
      invariant forall k :: i < k < |v.list| ==> !comparer.value(item, v.list[k])
    {
      var value := v.list[i];
      if comparer.value(item, value) {
        return true;
      }
      i := i - 1;
    }
    return false;
  }

  /** `Push(item)`: appends to the list. */
  function Push<T>(v: ListReverser<T>, item: T): (r: ListReverser<T>)
    ensures Count(r) == Count(v) + 1
    ensures Enumerate(r) == [item] + Enumerate(v)
  {
    var r := ListReverser(v.list + [item]);
    assert Enumerate(r) == [item] + Enumerate(v);
    r
  }

  /** `Peek()`: the list's last item, which is the view's item 0. */
  function Peek<T>(v: ListReverser<T>): (r: Result<T>)
    ensures r.Ok? <==> Count(v) > 0
    ensures r.Err? ==> r.error == CollectionIsEmpty
    ensures r.Ok? ==> Get(v, 0) == Ok(r.value)
  {
    ListUtils.PeekLast(Some(v.list))
  }

  /** `Pop()`: removes the list's last item. */
  function Pop<T>(v: ListReverser<T>): (r: Result<(T, ListReverser<T>)>)
    ensures r.Ok? <==> Count(v) > 0
    ensures r.Err? ==> r.error == CollectionIsEmpty
    ensures r.Ok? ==> Enumerate(v) == [r.value.0] + Enumerate(r.value.1)
  {
    match ListUtils.PopLast(Some(v.list))
    case Err(e) => Err(e)
    case Ok((item, rest)) =>
      assert v.list == rest + [item];
      Ok((item, ListReverser(rest)))
  }

  /** `TryPeek(out result)`: `(false, default)` on an empty list. */
  function TryPeek<T>(v: ListReverser<T>, dflt: T): (r: (bool, T))
    ensures r.0 <==> Count(v) > 0
    ensures !r.0 ==> r.1 == dflt
    ensures r.0 ==> Get(v, 0) == Ok(r.1)
  {
    ListUtils.TryPeekLast(Some(v.list), dflt).value
  }

  /** `TryPop(out result)`: `(false, default)` and no change on an empty list. */
  function TryPop<T>(v: ListReverser<T>, dflt: T): (r: (bool, T, ListReverser<T>))
    ensures r.0 <==> Count(v) > 0
    ensures !r.0 ==> r.1 == dflt && r.2 == v
    ensures r.0 ==> Enumerate(v) == [r.1] + Enumerate(r.2)
  {
    var t := ListUtils.TryPopLast(Some(v.list), dflt).value;
    assert t.0 ==> v.list == t.2 + [t.1];
    (t.0, t.1, ListReverser(t.2))
  }

  /** `Clear()`: empties the list. */
  function Clear<T>(v: ListReverser<T>): (r: ListReverser<T>)
    ensures Count(r) == 0
  {
    ListReverser([])
  }

  /** The view is a stack: what is pushed is what `Peek` and item 0 see, and
      popping it gives back the view as it was. */
  lemma PushThenPopIsIdentity<T>(v: ListReverser<T>, item: T, dflt: T)
    ensures Peek(Push(v, item)) == Ok(item)
    ensures Get(Push(v, item), 0) == Ok(item)
    ensures Pop(Push(v, item)) == Ok((item, v))
    ensures TryPop(Push(v, item), dflt) == (true, item, v)
  {
    var pushed := Push(v, item).list;
    assert pushed[..|pushed| - 1] == v.list;
  }
}

=== FILE: list_utils.dfy ===
/** `ListUtils`: lower-bound binary search over a sorted range, and the
    peek/pop-last helpers. A list is a sequence; `None` is a null list. */
module ListUtils {
  import opened Common
  import opened Comparers

  /** The range `[lo, hi)` of `list` is sorted under `cmp`. */
  ghost predicate SortedRange<T>(list: seq<T>, lo: int, hi: int, cmp: Comparison<T>)
    requires 0 <= lo <= hi <= |list|
  {
    forall i, j :: lo <= i < j < hi ==> cmp(list[i], list[j]) <= 0
  }

  /** `p` splits `[lo, hi)`: every item before `p` sorts strictly before
      `value`, and no item from `p` on does. On a sorted range this is the
      first occurrence of `value`, or where to insert it. */
  ghost predicate IsLowerBound<T>(list: seq<T>, lo: int, hi: int, value: T, cmp: Comparison<T>, p: int)
    requires 0 <= lo <= hi <= |list|
  {
    && lo <= p <= hi
    && (forall k :: lo <= k < p ==> cmp(value, list[k]) > 0)
    && (forall k :: p <= k < hi ==> cmp(value, list[k]) <= 0)
  }

  /** The `while (length > 0)` loop of `LowerBoundSearchImpl`, one call per
      iteration, over the state `(index, endIndexExcl)` with
      `length == endIndexExcl - index`. Each step either moves `index` past the
      probe (new length `length - length / 2 - 1`) or moves `endIndexExcl` onto
      it (new length `length / 2`), so the length strictly decreases. */
  function LowerBoundLoop<T(!new)>(list: seq<T>, index: int, endIndexExcl: int, value: T,
                                   cmp: Comparison<T>): (p: int)
    requires 0 <= index <= endIndexExcl <= |list|
    ensures index <= p <= endIndexExcl
    ensures IsComparer(cmp) && SortedRange(list, index, endIndexExcl, cmp) ==>
              IsLowerBound(list, index, endIndexExcl, value, cmp, p)
    decreases endIndexExcl - index
  {
    var length := endIndexExcl - index;
    if length == 0 then
      index
    else
      var i := index + length / 2;
      if cmp(value, list[i]) > 0 then
        var p := LowerBoundLoop(list, i + 1, endIndexExcl, value, cmp);
        assert IsComparer(cmp) && SortedRange(list, index, endIndexExcl, cmp) ==>
                 forall k :: index <= k <= i ==> cmp(value, list[k]) > 0 by {
          if IsComparer(cmp) && SortedRange(list, index, endIndexExcl, cmp) {
            forall k | index <= k <= i ensures cmp(value, list[k]) > 0 {
              if k < i {
                assert cmp(list[k], list[i]) <= 0;
              }
            }
          }
        }
        p
      else
        var p := LowerBoundLoop(list, index, i, value, cmp);
        assert IsComparer(cmp) && SortedRange(list, index, endIndexExcl, cmp) ==>
                 forall k :: i <= k < endIndexExcl ==> cmp(value, list[k]) <= 0 by {
          if IsComparer(cmp) && SortedRange(list, index, endIndexExcl, cmp) {
            forall k | i <= k < endIndexExcl ensures cmp(value, list[k]) <= 0 {
              if i < k {
                assert cmp(list[i], list[k]) <= 0;
              }
            }
          }
        }
        p
  }

  /** The comparer actually used: a null comparer means `Comparer<T>.Default`,
      which the caller supplies as `defaultComparer`. */
  function Resolve<T>(comparer: Option<Comparison<T>>, defaultComparer: Comparison<T>): Comparison<T> {
    if comparer.Some? then comparer.value else defaultComparer
  }

  /** `LowerBoundSearchImpl(list, index, length, value, comparer)`; its callers
      have already checked the range. */
  function LowerBoundSearchImpl<T(!new)>(list: seq<T>, index: int, length: int, value: T,
                                         comparer: Option<Comparison<T>>,
                                         defaultComparer: Comparison<T>): (p: int)
    requires 0 <= index && 0 <= length && index + length <= |list|
    ensures index <= p <= index + length
    ensures var cmp := Resolve(comparer, defaultComparer);
            IsComparer(cmp) && SortedRange(list, index, index + length, cmp) ==>
              IsLowerBound(list, index, index + length, value, cmp, p)
  {
    var cmp := Resolve(comparer, defaultComparer);
    var endIndexExcl := index + length;
    LowerBoundLoop(list, index, endIndexExcl, value, cmp)
  }

  /** The range overload `LowerBoundSearch(list, index, length, value, comparer)`:
      validates the list and the range in this order, then searches. */
  function LowerBoundSearchRange<T(!new)>(list: Option<seq<T>>, index: int, length: int, value: T,
                                          comparer: Option<Comparison<T>>,
                                          defaultComparer: Comparison<T>): (r: Result<int>)
    ensures r.Ok? <==> list.Some? && 0 <= index && 0 <= length && index + length <= |list.value|
    ensures list.None? ==> r == Err(ArgumentNull("list"))
    ensures list.Some? && index < 0 ==> r == Err(ArgumentOutOfRange("index"))
    ensures list.Some? && 0 <= index && length < 0 ==> r == Err(ArgumentOutOfRange("length"))
    ensures list.Some? && 0 <= index && 0 <= length && index + length > |list.value| ==>
              r == Err(Argument("length"))
    ensures r.Ok? ==> index <= r.value <= index + length
    ensures r.Ok? ==> var cmp := Resolve(comparer, defaultComparer);
              IsComparer(cmp) && SortedRange(list.value, index, index + length, cmp) ==>
                IsLowerBound(list.value, index, index + length, value, cmp, r.value)
  {
    if list.None? then
      Err(ArgumentNull("list"))
    else if index < 0 then
      Err(ArgumentOutOfRange("index"))
    else if length < 0 then
      Err(ArgumentOutOfRange("length"))
    else if index + length > |list.value| then
      Err(Argument("length"))
    else
      Ok(LowerBoundSearchImpl(list.value, index, length, value, comparer, defaultComparer))
  }

  /** The whole-list overload `LowerBoundSearch(list, value, comparer)`. */
  function LowerBoundSearch<T(!new)>(list: Option<seq<T>>, value: T, comparer: Option<Comparison<T>>,
                                     defaultComparer: Comparison<T>): (r: Result<int>)
    ensures r.Ok? <==> list.Some?
    ensures list.None? ==> r == Err(ArgumentNull("list"))
    ensures r.Ok? ==> 0 <= r.value <= |list.value|
    ensures r.Ok? ==> var cmp := Resolve(comparer, defaultComparer);
              IsComparer(cmp) && SortedRange(list.value, 0, |list.value|, cmp) ==>
                IsLowerBound(list.value, 0, |list.value|, value, cmp, r.value)
  {
    if list.None? then
      Err(ArgumentNull("list"))
    else
      Ok(LowerBoundSearchImpl(list.value, 0, |list.value|, value, comparer, defaultComparer))
  }

  /** Searching the whole list is searching the range `[0, Count)`. */
  lemma WholeListIsFullRange<T(!new)>(list: seq<T>, value: T, comparer: Option<Comparison<T>>,
                                      defaultComparer: Comparison<T>)
    ensures LowerBoundSearch(Some(list), value, comparer, defaultComparer)
         == LowerBoundSearchRange(Some(list), 0, |list|, value, comparer, defaultComparer)
  {
  }

  /** A range has at most one split point, so on a sorted range the search
      returns exactly the split point: the first occurrence of `value`, or the
      position to insert it at. */
  lemma SearchFindsTheSplitPoint<T(!new)>(list: seq<T>, index: int, length: int, value: T,
                                          cmp: Comparison<T>, q: int)
    requires 0 <= index && 0 <= length && index + length <= |list|
    requires IsComparer(cmp) && SortedRange(list, index, index + length, cmp)
    requires IsLowerBound(list, index, index + length, value, cmp, q)
    ensures LowerBoundSearchImpl(list, index, length, value, Some(cmp), cmp) == q
  {
    var p := LowerBoundSearchImpl(list, index, length, value, Some(cmp), cmp);
    assert p < q ==> SortsBefore(list, p, value, cmp) && !SortsBefore(list, p, value, cmp);
    assert q < p ==> SortsBefore(list, q, value, cmp) && !SortsBefore(list, q, value, cmp);
  }

  /** The item at `k` sorts strictly before `value`. */
  ghost predicate SortsBefore<T>(list: seq<T>, k: int, value: T, cmp: Comparison<T>) {
    0 <= k < |list| && cmp(value, list[k]) > 0
  }

  /** `PeekLast(list)`: the last item, without change. */
  function PeekLast<T>(list: Option<seq<T>>): (r: Result<T>)
    ensures list.None? ==> r == Err(ArgumentNull("list"))
    ensures list.Some? && |list.value| == 0 ==> r == Err(CollectionIsEmpty)
    ensures list.Some? && |list.value| > 0 ==> r == Ok(list.value[|list.value| - 1])
  {
    if list.None? then
      Err(ArgumentNull("list"))
    else
      var index := |list.value| - 1;
      if index < 0 then Err(CollectionIsEmpty) else Ok(list.value[index])
  }

  /** `PopLast(list)`: the last item, and the list without it. */
  function PopLast<T>(list: Option<seq<T>>): (r: Result<(T, seq<T>)>)
    ensures r.Ok? <==> list.Some? && |list.value| > 0
    ensures list.None? ==> r == Err(ArgumentNull("list"))
    ensures list.Some? && |list.value| == 0 ==> r == Err(CollectionIsEmpty)
    ensures r.Ok? ==> r.value.1 + [r.value.0] == list.value
  {
    if list.None? then
      Err(ArgumentNull("list"))
    else
      var index := |list.value| - 1;
      if index < 0 then
        Err(CollectionIsEmpty)
      else
        var item := list.value[index];
        Ok((item, list.value[..index]))
  }

  /** `TryPeekLast(list, out result)`: `(false, default)` on an empty list. */
  function TryPeekLast<T>(list: Option<seq<T>>, dflt: T): (r: Result<(bool, T)>)
    ensures list.None? ==> r == Err(ArgumentNull("list"))
    ensures list.Some? && |list.value| == 0 ==> r == Ok((false, dflt))
    ensures list.Some? && |list.value| > 0 ==> r == Ok((true, list.value[|list.value| - 1]))
  {
    if list.None? then
      Err(ArgumentNull("list"))
    else
      var index := |list.value| - 1;
      if index < 0 then Ok((false, dflt)) else Ok((true, list.value[index]))
  }

  /** `TryPopLast(list, out result)`: `(false, default)` and the list unchanged
      when it is empty. */
  function TryPopLast<T>(list: Option<seq<T>>, dflt: T): (r: Result<(bool, T, seq<T>)>)
    ensures r.Ok? <==> list.Some?
    ensures list.None? ==> r == Err(ArgumentNull("list"))
    ensures list.Some? && |list.value| == 0 ==> r == Ok((false, dflt, list.value))
    ensures r.Ok? && r.value.0 ==> r.value.2 + [r.value.1] == list.value
    ensures r.Ok? ==> (r.value.0 <==> |list.value| > 0)
  {
    if list.None? then
      Err(ArgumentNull("list"))
    else
      var index := |list.value| - 1;
      if index < 0 then
        Ok((false, dflt, list.value))
      else
        var result := list.value[index];
        Ok((true, result, list.value[..index]))
  }

  /** The popping forms return what the peeking forms see, and the `Try` forms
      agree with the throwing forms wherever those do not throw. */
  lemma PopReturnsPeek<T>(list: seq<T>, dflt: T)
    requires |list| > 0
    ensures PopLast(Some(list)).value.0 == PeekLast(Some(list)).value
    ensures TryPopLast(Some(list), dflt) == Ok((true, PopLast(Some(list)).value.0, PopLast(Some(list)).value.1))
    ensures TryPeekLast(Some(list), dflt) == Ok((true, PeekLast(Some(list)).value))
  {
    var p := PopLast(Some(list)).value;
    assert p.1 + [p.0] == list;
    assert list[|list| - 1] == p.0;
    assert p.1 == list[..|list| - 1];
  }
}

=== FILE: math_utils.dfy ===
/** `MathUtils.Wrap`, the index normaliser of the ring buffer, over C#'s
    truncating remainder operator. */
module MathUtils {
  import opened Common

  /** C#'s `a % b` for a positive divisor: the remainder of division truncated
      toward zero, which has the sign of `a` (Dafny's own `%` is Euclidean and
      never negative). */
  function CsRem(a: int, b: int): (r: int)
    requires b > 0
    ensures a >= 0 ==> 0 <= r < b
    ensures a < 0 ==> -b < r <= 0
    ensures (a - r) % b == 0
  {
    if a >= 0 then
      DivMod(a, b);
      DivisionUnique(a - a % b, b, a / b, 0);
      a % b
    else
      DivMod(-a, b);
      DivisionUnique(a + (-a) % b, b, -((-a) / b), 0);
      -((-a) % b)
  }

  /** Dafny's Euclidean division and remainder. */
  lemma DivMod(a: int, b: int)
    requires b > 0
    ensures a == (a / b) * b + a % b
    ensures 0 <= a % b < b
  {
  }

  lemma MulAtLeast(k: int, n: int)
    requires k >= 1 && n > 0
    ensures k * n >= n
    decreases k
  {
    if k > 1 {
      MulAtLeast(k - 1, n);
      assert k * n == (k - 1) * n + n;
    }
  }

  /** Quotient and remainder are unique: `x == q * n + r` with `0 <= r < n`
      fixes `x / n == q` and `x % n == r`. */
  lemma DivisionUnique(x: int, n: int, q: int, r: int)
    requires n > 0 && 0 <= r < n
    requires x == q * n + r
    ensures x / n == q && x % n == r
  {
    DivMod(x, n);
    var d := q - x / n;
    assert d * n == x % n - r;
    if d >= 1 {
      MulAtLeast(d, n);
    } else if d <= -1 {
      MulAtLeast(-d, n);
    }
  }

  /** `Wrap(length, value)`: throws when `length < 1`, otherwise computes
      `((value % length) + length) % length` with C#'s remainder; the result is
      the mathematical modulus of `value`, for negative values too. */
  function Wrap(length: int, value: int): (r: Result<int>)
    ensures r.Ok? <==> length >= 1
    ensures r.Err? ==> r.error == ArgumentOutOfRange("length")
    ensures r.Ok? ==> r.value == value % length
  {
    if length < 1 then
      Err(ArgumentOutOfRange("length"))
    else
      var v := CsRem(value, length);
      var v := v + length;
      WrapStep(value, length);
      Ok(CsRem(v, length))
  }

  lemma WrapStep(value: int, n: int)
    requires n > 0
    ensures CsRem(CsRem(value, n) + n, n) == value % n
  {
    if value >= 0 {
      var m := value % n;
      DivisionUnique(m + n, n, 1, m);
    } else {
      var m := (-value) % n;
      var q := (-value) / n;
      DivMod(-value, n);
      if m == 0 {
        DivisionUnique(n, n, 1, 0);
        DivisionUnique(value, n, -q, 0);
      } else {
        DivisionUnique(n - m, n, 0, n - m);
        DivisionUnique(value, n, -q - 1, n - m);
      }
    }
  }

  /** The result lies in `[0, length)` and differs from `value` by a multiple
      of `length`. */
  lemma WrapRangeAndCongruence(length: int, value: int)
    requires length >= 1
    ensures 0 <= Wrap(length, value).value < length
    ensures (Wrap(length, value).value - value) % length == 0
  {
    DivMod(value, length);
    DivisionUnique(value % length - value, length, -(value / length), 0);
  }

  /** A value already in `[0, length)` comes back unchanged. */
  lemma WrapInRange(length: int, value: int)
    requires 0 <= value < length
    ensures Wrap(length, value) == Ok(value)
  {
    DivisionUnique(value, length, 0, value);
  }

  /** Wrapping twice is wrapping once. */
  lemma WrapIdempotent(length: int, value: int)
    requires length >= 1
    ensures Wrap(length, Wrap(length, value).value) == Wrap(length, value)
  {
    DivMod(value, length);
    WrapInRange(length, Wrap(length, value).value);
  }

  /** The two uses in the ring buffer: one step back from slot 0 is the last
      slot, and one step past the last slot is slot 0. */
  lemma WrapRingSteps(length: int)
    requires length >= 1
    ensures Wrap(length, -1) == Ok(length - 1)
    ensures Wrap(length, length) == Ok(0)
  {
    DivisionUnique(-1, length, -1, length - 1);
    DivisionUnique(length, length, 1, 0);
  }

  /** Moving a ring index one step in either direction. */
  lemma WrapNeighbours(length: int, s: int)
    requires 0 <= s < length
    ensures Wrap(length, s - 1) == Ok(if s == 0 then length - 1 else s - 1)
    ensures Wrap(length, s + 1) == Ok(if s + 1 == length then 0 else s + 1)
  {
    if s == 0 {
      WrapRingSteps(length);
    } else {
      WrapInRange(length, s - 1);
    }
    if s + 1 == length {
      WrapRingSteps(length);
    } else {
      WrapInRange(length, s + 1);
    }
  }
}

=== FILE: priority_queue.dfy ===
/** `PriorityQueue<TItem, TPriority>`: items kept in two parallel arrays,
    sorted by ascending priority under the queue's comparer, so the front of the
    queue is the last occupied slot. A new item goes before every item of equal
    priority (lower-bound insertion), which makes equal priorities leave in the
    order they came. */
module PriorityQueues {
  import opened Common
  import opened Comparers
  import ListUtils
  import ArrayUtils

  datatype PriorityQueue<I, !P> = PriorityQueue(
    priorities: seq<P>,
    items: seq<I>,
    count: int,
    version: int,
    priorityComparer: Comparison<P>)

  function Capacity<I, P>(q: PriorityQueue<I, P>): nat {
    |q.items|
  }

  /** The class invariant: both arrays have the same length and the first
      `count` slots of each are occupied. */
  predicate Valid<I, P>(q: PriorityQueue<I, P>) {
    |q.priorities| == |q.items| && 0 <= q.count <= |q.items|
  }

  /** The occupied prefix of the item array, lowest priority first. */
  function Stored<I, P>(q: PriorityQueue<I, P>): seq<I>
    requires Valid(q)
  {
    q.items[..q.count]
  }

  /** The occupied prefix of the priority array. */
  function StoredPriorities<I, P>(q: PriorityQueue<I, P>): seq<P>
    requires Valid(q)
  {
    q.priorities[..q.count]
  }

  /** The items in the order `Dequeue` hands them out: the stored items back
      to front. */
  function DequeueOrder<I, P>(q: PriorityQueue<I, P>): seq<I>
    requires Valid(q)
  {
    ReverseSeq(Stored(q))
  }

  /** The occupied priorities are in ascending order under the comparer. */
  ghost predicate Sorted<I, P>(q: PriorityQueue<I, P>)
    requires Valid(q)
  {
    ListUtils.SortedRange(q.priorities, 0, q.count, q.priorityComparer)
  }

  /** Unoccupied slots hold only `default(TItem)` and `default(TPriority)`. */
  ghost predicate Clean<I, P>(q: PriorityQueue<I, P>, dItem: I, dPrio: P)
    requires Valid(q)
  {
    forall k :: q.count <= k < |q.items| ==> q.items[k] == dItem && q.priorities[k] == dPrio
  }

  /** The constructor `PriorityQueue(capacity, priorityComparer)`; a null
      comparer means `Comparer<TPriority>.Default`. The other constructors pass
      capacity 0. */
  function New<I, P>(capacity: int, priorityComparer: Option<Comparison<P>>,
                     defaultComparer: Comparison<P>, dItem: I, dPrio: P): (r: Result<PriorityQueue<I, P>>)
    ensures r.Ok? <==> capacity >= 0
    ensures r.Err? ==> r.error == ArgumentOutOfRange("capacity")
    ensures r.Ok? ==> Valid(r.value) && Capacity(r.value) == capacity && r.value.count == 0
    ensures r.Ok? ==> r.value.priorityComparer == ListUtils.Resolve(priorityComparer, defaultComparer)
    ensures r.Ok? ==> Sorted(r.value) && Clean(r.value, dItem, dPrio)
  {
    if capacity < 0 then
      Err(ArgumentOutOfRange("capacity"))
    else
      var cmp := if priorityComparer.Some? then priorityComparer.value else defaultComparer;
      if capacity > 0 then
        Ok(PriorityQueue(seq(capacity, _ => dPrio), seq(capacity, _ => dItem), 0, 0, cmp))
      else
        Ok(PriorityQueue(ArrayUtils.GetEmpty(), ArrayUtils.GetEmpty(), 0, 0, cmp))
  }

  /** Where `Enqueue` places a new entry: the lower bound of `priority` in the
      occupied priorities. */
  function EnqueueIndex<I, P(!new)>(q: PriorityQueue<I, P>, priority: P): (index: int)
    requires Valid(q)
    ensures 0 <= index <= q.count
    ensures IsComparer(q.priorityComparer) && Sorted(q) ==>
              ListUtils.IsLowerBound(q.priorities, 0, q.count, priority, q.priorityComparer, index)
  {
    ListUtils.LowerBoundSearchRange(Some(q.priorities), 0, q.count, priority,
                                    Some(q.priorityComparer), q.priorityComparer).value
  }

  /** `Enqueue(item, priority)`: inserts the entry at its lower bound, growing
      both arrays when full. */
  function Enqueue<I, P(!new)>(q: PriorityQueue<I, P>, item: I, priority: P, dItem: I, dPrio: P)
    : (r: PriorityQueue<I, P>)
    requires Valid(q)
    ensures Valid(r) && r.count == q.count + 1
    ensures r.version == NextVersion(q.version) && r.priorityComparer == q.priorityComparer
    ensures Capacity(q) == q.count ==> Capacity(r) == GrownCapacity(q.count)
    ensures Capacity(q) > q.count ==> Capacity(r) == Capacity(q)
    ensures var index := EnqueueIndex(q, priority);
            && Stored(r) == Stored(q)[..index] + [item] + Stored(q)[index..]
            && StoredPriorities(r) == StoredPriorities(q)[..index] + [priority] + StoredPriorities(q)[index..]
    ensures IsComparer(q.priorityComparer) && Sorted(q) ==> Sorted(r)
    ensures Clean(q, dItem, dPrio) ==> Clean(r, dItem, dPrio)
  {
    var index := EnqueueIndex(q, priority);
    var r :=
      if |q.items| == q.count then
        var capacity := if q.count == 0 then 4 else q.count * 2;
        var priorities := ArrayUtils.ResizeAndInsert(Some(q.priorities), capacity, index, priority, dPrio).value;
        var items := ArrayUtils.ResizeAndInsert(Some(q.items), capacity, index, item, dItem).value;
        q.(priorities := priorities, items := items)
      else
        var priorities := ArrayUtils.Insert(Some(q.priorities), q.count, index, priority).value;
        var items := ArrayUtils.Insert(Some(q.items), q.count, index, item).value;
        q.(priorities := priorities, items := items);
    var r := r.(count := q.count + 1, version := NextVersion(q.version));
    InsertedInPlace(q, r, index, item, priority);
    InsertionKeepsOrder(q, r, index, priority);
    r
  }

  /** The element-wise shape of both inserts, as whole-sequence equalities. */
  lemma InsertedInPlace<I, P>(q: PriorityQueue<I, P>, r: PriorityQueue<I, P>, index: int, item: I, priority: P)
    requires Valid(q) && Valid(r) && r.count == q.count + 1 && 0 <= index <= q.count
    requires forall k :: 0 <= k < index ==> r.items[k] == q.items[k] && r.priorities[k] == q.priorities[k]
    requires r.items[index] == item && r.priorities[index] == priority
    requires forall k :: index < k <= q.count ==> r.items[k] == q.items[k - 1] && r.priorities[k] == q.priorities[k - 1]
    ensures Stored(r) == Stored(q)[..index] + [item] + Stored(q)[index..]
    ensures StoredPriorities(r) == StoredPriorities(q)[..index] + [priority] + StoredPriorities(q)[index..]
  {
  }

  /** Inserting at the lower bound of a sorted range keeps it sorted. */
  lemma InsertionKeepsOrder<I, P(!new)>(q: PriorityQueue<I, P>, r: PriorityQueue<I, P>, index: int, priority: P)
    requires Valid(q) && Valid(r) && r.count == q.count + 1 && r.priorityComparer == q.priorityComparer
    requires 0 <= index <= q.count
    requires IsComparer(q.priorityComparer) && Sorted(q) ==>
               ListUtils.IsLowerBound(q.priorities, 0, q.count, priority, q.priorityComparer, index)
    requires StoredPriorities(r) == StoredPriorities(q)[..index] + [priority] + StoredPriorities(q)[index..]
    ensures IsComparer(q.priorityComparer) && Sorted(q) ==> Sorted(r)
  {
    var cmp := q.priorityComparer;
    forall i, j | IsComparer(cmp) && Sorted(q) && 0 <= i < j < r.count
      ensures cmp(r.priorities[i], r.priorities[j]) <= 0
    {
      assert r.priorities[i] == StoredPriorities(r)[i] && r.priorities[j] == StoredPriorities(r)[j];
      if j < index {
        assert r.priorities[i] == q.priorities[i] && r.priorities[j] == q.priorities[j];
      } else if j == index {
        assert r.priorities[i] == q.priorities[i] && cmp(priority, q.priorities[i]) > 0;
      } else if i == index {
        assert r.priorities[j] == q.priorities[j - 1] && cmp(priority, q.priorities[j - 1]) <= 0;
      } else if i < index {
        assert r.priorities[i] == q.priorities[i] && r.priorities[j] == q.priorities[j - 1];
      } else {
        assert r.priorities[i] == q.priorities[i - 1] && r.priorities[j] == q.priorities[j - 1];
      }
    }
  }

  /** `IQueue<TItem>.Enqueue(item)`: enqueue with `default(TPriority)`. */
  function EnqueueDefault<I, P(!new)>(q: PriorityQueue<I, P>, item: I, dItem: I, dPrio: P): (r: PriorityQueue<I, P>)
    requires Valid(q)
    ensures Valid(r) && r.count == q.count + 1
    ensures r.version == NextVersion(q.version) && r.priorityComparer == q.priorityComparer
    ensures var index := EnqueueIndex(q, dPrio);
            && Stored(r) == Stored(q)[..index] + [item] + Stored(q)[index..]
            && StoredPriorities(r) == StoredPriorities(q)[..index] + [dPrio] + StoredPriorities(q)[index..]
    ensures IsComparer(q.priorityComparer) && Sorted(q) ==> Sorted(r)
  {
    Enqueue(q, item, dPrio, dItem, dPrio)
  }

  /** `DequeueImpl(out item)`: takes the last occupied entry and resets both
      of its slots to the defaults. */
  function DequeueImpl<I, P>(q: PriorityQueue<I, P>, dItem: I, dPrio: P): (r: (I, PriorityQueue<I, P>))
    requires Valid(q) && q.count > 0
    ensures r.0 == q.items[q.count - 1]
    ensures Valid(r.1) && r.1.count == q.count - 1 && Capacity(r.1) == Capacity(q)
    ensures r.1.version == NextVersion(q.version) && r.1.priorityComparer == q.priorityComparer
    ensures Stored(r.1) == Stored(q)[..q.count - 1]
    ensures r.1.items[q.count - 1] == dItem && r.1.priorities[q.count - 1] == dPrio
    ensures StoredPriorities(r.1) == StoredPriorities(q)[..q.count - 1]
    ensures [r.0] + DequeueOrder(r.1) == DequeueOrder(q)
    ensures Sorted(q) ==> Sorted(r.1)
    ensures Clean(q, dItem, dPrio) ==> Clean(r.1, dItem, dPrio)
  {
    var index := q.count - 1;
    var item := q.items[index];
    var r := q.(items := q.items[index := dItem], priorities := q.priorities[index := dPrio]);
    var r := r.(count := q.count - 1, version := NextVersion(q.version));
    assert Stored(q) == Stored(r) + [item];
    ReverseOfSnoc(Stored(r), item);
    (item, r)
  }

  /** Under a lawful comparer and sorted contents, the last occupied slot has
      the greatest priority. */
  predicate FrontIsGreatest<I, P>(q: PriorityQueue<I, P>)
    requires Valid(q) && q.count > 0
  {
    forall k :: 0 <= k < q.count ==> NoLater(q.priorityComparer, q.priorities[k], q.priorities[q.count - 1])
  }

  lemma SortedFrontIsGreatest<I, P(!new)>(q: PriorityQueue<I, P>)
    requires Valid(q) && q.count > 0
    ensures IsComparer(q.priorityComparer) && Sorted(q) ==> FrontIsGreatest(q)
  {
  }

  /** `Dequeue()`: throws on an empty queue. */
  function Dequeue<I, P(!new)>(q: PriorityQueue<I, P>, dItem: I, dPrio: P): (r: Result<(I, PriorityQueue<I, P>)>)
    requires Valid(q)
    ensures r.Ok? <==> q.count > 0
    ensures r.Err? ==> r.error == CollectionIsEmpty
    ensures r.Ok? ==> Valid(r.value.1) && [r.value.0] + DequeueOrder(r.value.1) == DequeueOrder(q)
    ensures r.Ok? ==> r.value.1.version == NextVersion(q.version)
    ensures r.Ok? && IsComparer(q.priorityComparer) && Sorted(q) ==> FrontIsGreatest(q) && Sorted(r.value.1)
  {
    if q.count == 0 then
      Err(CollectionIsEmpty)
    else
      SortedFrontIsGreatest(q);
      Ok(DequeueImpl(q, dItem, dPrio))
  }

  /** `TryDequeue(out item)`: `(false, default)` and no change when empty. */
  function TryDequeue<I, P(!new)>(q: PriorityQueue<I, P>, dItem: I, dPrio: P): (r: (bool, I, PriorityQueue<I, P>))
    requires Valid(q)
    ensures r.0 <==> q.count > 0
    ensures !r.0 ==> r.1 == dItem && r.2 == q
    ensures r.0 ==> Valid(r.2) && [r.1] + DequeueOrder(r.2) == DequeueOrder(q)
    ensures r.0 ==> r.2.version == NextVersion(q.version)
    ensures r.0 && IsComparer(q.priorityComparer) && Sorted(q) ==> FrontIsGreatest(q) && Sorted(r.2)
  {
    if q.count == 0 then
      (false, dItem, q)
    else
      SortedFrontIsGreatest(q);
      var (item, r) := DequeueImpl(q, dItem, dPrio);
      (true, item, r)
  }

  /** `Peek()`: the front item; throws on an empty queue. */
  function Peek<I, P>(q: PriorityQueue<I, P>): (r: Result<I>)
    requires Valid(q)
    ensures r.Ok? <==> q.count > 0
    ensures r.Err? ==> r.error == CollectionIsEmpty
    ensures r.Ok? ==> r.value == DequeueOrder(q)[0]
  {
    if q.count == 0 then
      Err(CollectionIsEmpty)
    else
      var index := q.count - 1;
      Ok(q.items[index])
  }

  /** `TryPeek(out item)`: `(false, default)` when empty. */
  function TryPeek<I, P>(q: PriorityQueue<I, P>, dItem: I): (r: (bool, I))
    requires Valid(q)
    ensures r.0 <==> q.count > 0
    ensures r.0 ==> r.1 == DequeueOrder(q)[0]
    ensures !r.0 ==> r.1 == dItem
  {
    if q.count == 0 then
      (false, dItem)
    else
      var index := q.count - 1;
      (true, q.items[index])
  }

  /** Peeking and dequeuing agree on the front item. */
  lemma PeekIsWhatDequeueTakes<I, P(!new)>(q: PriorityQueue<I, P>, dItem: I, dPrio: P)
    requires Valid(q) && q.count > 0
    ensures Peek(q) == Ok(Dequeue(q, dItem, dPrio).value.0)
    ensures TryPeek(q, dItem) == (true, Peek(q).value)
  {
  }

  /** `Clear()`: resets the occupied slots of both arrays and empties the
      queue; the capacity stays. */
  function Clear<I, P>(q: PriorityQueue<I, P>, dItem: I, dPrio: P): (r: PriorityQueue<I, P>)
    requires Valid(q)
    ensures Valid(r) && r.count == 0 && Capacity(r) == Capacity(q)
    ensures r.version == NextVersion(q.version) && r.priorityComparer == q.priorityComparer
    ensures forall k :: 0 <= k < q.count ==> r.items[k] == dItem && r.priorities[k] == dPrio
    ensures forall k :: q.count <= k < |q.items| ==> r.items[k] == q.items[k] && r.priorities[k] == q.priorities[k]
    ensures Clean(q, dItem, dPrio) ==> Clean(r, dItem, dPrio)
  {
    var priorities := seq(|q.priorities|, k requires 0 <= k < |q.priorities| =>
                            if k < q.count then dPrio else q.priorities[k]);
    var items := seq(|q.items|, k requires 0 <= k < |q.items| => if k < q.count then dItem else q.items[k]);
    q.(priorities := priorities, items := items, count := 0, version := NextVersion(q.version))
  }

  /** The items `Dequeue` returns until the queue is empty. */
  function DequeueAll<I, P(!new)>(q: PriorityQueue<I, P>, dItem: I, dPrio: P): (r: seq<I>)
    requires Valid(q)
    ensures r == DequeueOrder(q)
    decreases q.count
  {
    if q.count == 0 then
      []
    else
      var (item, rest) := Dequeue(q, dItem, dPrio).value;
      [item] + DequeueAll(rest, dItem, dPrio)
  }

  /** `PriorityQueue<,>.Enumerator`: a cursor counting down from `count` and
      the queue version it was created against. */
  datatype Enumerator = Enumerator(index: int, version: int)

  /** `GetEnumerator()`: positioned past the last occupied slot; draining it
      yields the items in dequeue order. */
  function GetEnumerator<I, P>(q: PriorityQueue<I, P>): (e: Enumerator)
    requires Valid(q)
    ensures e.index == q.count && e.version == q.version
    ensures Drain(q, e) == Ok(DequeueOrder(q))
  {
    assert Stored(q)[..q.count] == Stored(q);
    Enumerator(q.count, q.version)
  }

  /** `MoveNext()`: throws once the queue has been mutated; otherwise steps
      down and reports whether it still points at an item. */
  function MoveNext<I, P>(q: PriorityQueue<I, P>, e: Enumerator): (r: Result<(bool, Enumerator)>)
    ensures r.Err? <==> e.version != q.version
    ensures r.Err? ==> r.error == CollectionContentsHaveChanged
    ensures r.Ok? ==> r.value.1 == Enumerator(e.index - 1, e.version)
    ensures r.Ok? ==> (r.value.0 <==> e.index - 1 >= 0)
  {
    if e.version != q.version then
      Err(CollectionContentsHaveChanged)
    else
      var index := e.index - 1;
      Ok((index >= 0, Enumerator(index, e.version)))
  }

  /** `Current`: the item at the cursor, once `MoveNext` returned true. */
  function Current<I, P>(q: PriorityQueue<I, P>, e: Enumerator): (r: I)
    requires Valid(q) && 0 <= e.index < q.count
    ensures r == Stored(q)[e.index]
  {
    q.items[e.index]
  }

  /** `Reset()`: back past the last occupied slot, re-bound to the current
      version. */
  function Reset<I, P>(q: PriorityQueue<I, P>, e: Enumerator): (r: Enumerator)
    requires Valid(q)
    ensures r == GetEnumerator(q)
    ensures Drain(q, r) == Ok(DequeueOrder(q))
  {
    Enumerator(q.count, q.version)
  }

  /** What a `foreach` over the enumerator yields, or the exception
      `MoveNext` throws. */
  function Drain<I, P>(q: PriorityQueue<I, P>, e: Enumerator): (r: Result<seq<I>>)
    requires Valid(q) && e.index <= q.count
    ensures r.Ok? <==> e.version == q.version
    ensures r.Err? ==> r.error == CollectionContentsHaveChanged
    ensures r.Ok? ==> r.value == ReverseSeq(Stored(q)[..if e.index > 0 then e.index else 0])
    decreases e.index
  {
    match MoveNext(q, e)
    case Err(error) => Err(error)
    case Ok((more, next)) =>
      if !more then
        Ok([])
      else
        var rest := Drain(q, next);
        if rest.Err? then
          rest
        else
          assert Stored(q)[..e.index] == Stored(q)[..next.index] + [Stored(q)[next.index]];
          ReverseOfSnoc(Stored(q)[..next.index], Stored(q)[next.index]);
          Ok([Current(q, next)] + rest.value)
  }

  /** Enumerating a queue yields exactly what dequeuing it all returns. */
  lemma EnumerationMatchesDequeues<I, P(!new)>(q: PriorityQueue<I, P>, dItem: I, dPrio: P)
    requires Valid(q)
    ensures Drain(q, GetEnumerator(q)) == Ok(DequeueAll(q, dItem, dPrio))
  {
  }

  /** Any mutation bumps the version, so an enumerator taken before it throws
      on its next `MoveNext`. */
  lemma MutationInvalidatesEnumerator<I, P(!new)>(q: PriorityQueue<I, P>, item: I, priority: P,
                                                  dItem: I, dPrio: P, e: Enumerator)
    requires Valid(q) && e == GetEnumerator(q)
    ensures MoveNext(Enqueue(q, item, priority, dItem, dPrio), e) == Err(CollectionContentsHaveChanged)
    ensures MoveNext(Clear(q, dItem, dPrio), e) == Err(CollectionContentsHaveChanged)
    ensures q.count > 0 ==> MoveNext(DequeueImpl(q, dItem, dPrio).1, e) == Err(CollectionContentsHaveChanged)
  {
  }

  /** Where a newly enqueued item leaves relative to the items already queued:
      after every item whose priority is not lower than its own (equal
      priorities leave first in, first out), before every item whose
      priority is lower. */
  lemma EnqueuePosition<I, P(!new)>(q: PriorityQueue<I, P>, item: I, priority: P, dItem: I, dPrio: P)
    requires Valid(q) && IsComparer(q.priorityComparer) && Sorted(q)
    ensures var r := Enqueue(q, item, priority, dItem, dPrio);
            var index := EnqueueIndex(q, priority);
            && Stored(r)[index] == item
            && (forall k :: 0 <= k < index ==> q.priorityComparer(priority, StoredPriorities(r)[k]) > 0)
            && (forall k :: index < k < r.count ==> q.priorityComparer(priority, StoredPriorities(r)[k]) <= 0)
  {
    var r := Enqueue(q, item, priority, dItem, dPrio);
    var index := EnqueueIndex(q, priority);
    forall k | index < k < r.count ensures q.priorityComparer(priority, StoredPriorities(r)[k]) <= 0 {
      assert StoredPriorities(r)[k] == q.priorities[k - 1];
    }
  }

  /** With the reversed integer comparer (smaller numbers first), enqueueing
      `a` at 5, `b` at 1 and `c` at 3 dequeues `b`, `c`, `a`. */
  lemma ReversedComparerScenario()
    ensures var q0 := New<char, int>(0, Some(Reversed(IntCompare)), IntCompare, ' ', 0).value;
            var q3 := Enqueue(Enqueue(Enqueue(q0, 'a', 5, ' ', 0), 'b', 1, ' ', 0), 'c', 3, ' ', 0);
            DequeueAll(q3, ' ', 0) == ['b', 'c', 'a']
  {
    var q0 := New<char, int>(0, Some(Reversed(IntCompare)), IntCompare, ' ', 0).value;
    var q1 := ScenarioFirst(q0);
    var q2 := ScenarioSecond(q1);
    var q3 := ScenarioThird(q2);
    ScenarioDrain(q3);
  }

  lemma ScenarioDrain(q3: PriorityQueue<char, int>)
    requires Valid(q3) && Stored(q3) == ['a', 'c', 'b']
    ensures DequeueAll(q3, ' ', 0) == ['b', 'c', 'a']
  {
    var order := DequeueAll(q3, ' ', 0);
    assert order == ReverseSeq(['a', 'c', 'b']);
    assert order[0] == 'b' && order[1] == 'c' && order[2] == 'a';
  }

  lemma ScenarioFirst(q0: PriorityQueue<char, int>) returns (q1: PriorityQueue<char, int>)
    requires Valid(q0) && q0.count == 0 && q0.priorityComparer == Reversed(IntCompare)
    ensures q1 == Enqueue(q0, 'a', 5, ' ', 0)
    ensures Valid(q1) && Stored(q1) == ['a'] && StoredPriorities(q1) == [5]
    ensures q1.priorityComparer == Reversed(IntCompare)
  {
    q1 := Enqueue(q0, 'a', 5, ' ', 0);
    var index := EnqueueIndex(q0, 5);
    assert index == 0 && Stored(q0) == [] && StoredPriorities(q0) == [];
    assert Stored(q1) == [] + ['a'] + [];
    assert StoredPriorities(q1) == [] + [5] + [];
  }

  lemma ScenarioSecond(q1: PriorityQueue<char, int>) returns (q2: PriorityQueue<char, int>)
    requires Valid(q1) && Stored(q1) == ['a'] && StoredPriorities(q1) == [5]
    requires q1.priorityComparer == Reversed(IntCompare)
    ensures q2 == Enqueue(q1, 'b', 1, ' ', 0)
    ensures Valid(q2) && Stored(q2) == ['a', 'b'] && StoredPriorities(q2) == [5, 1]
    ensures q2.priorityComparer == Reversed(IntCompare)
  {
    ScenarioSecondIndex(q1);
    q2 := Enqueue(q1, 'b', 1, ' ', 0);
  }

  lemma ScenarioThird(q2: PriorityQueue<char, int>) returns (q3: PriorityQueue<char, int>)
    requires Valid(q2) && Stored(q2) == ['a', 'b'] && StoredPriorities(q2) == [5, 1]
    requires q2.priorityComparer == Reversed(IntCompare)
    ensures q3 == Enqueue(q2, 'c', 3, ' ', 0)
    ensures Valid(q3) && Stored(q3) == ['a', 'c', 'b']
  {
    ScenarioThirdIndex(q2);
    q3 := Enqueue(q2, 'c', 3, ' ', 0);
  }

  lemma ScenarioSecondIndex(q: PriorityQueue<char, int>)
    requires Valid(q) && StoredPriorities(q) == [5] && q.priorityComparer == Reversed(IntCompare)
    ensures EnqueueIndex(q, 1) == 1
  {
    ReversedComparerLaws();
    var cmp := q.priorityComparer;
    assert q.priorities[0] == 5 && cmp(1, 5) == IntCompare(5, 1) == 1;
    assert Sorted(q);
    var i, p0 := EnqueueIndex(q, 1), q.priorities[0];
    assert i == 0 ==> cmp(1, p0) <= 0;
  }

  lemma ScenarioThirdIndex(q: PriorityQueue<char, int>)
    requires Valid(q) && StoredPriorities(q) == [5, 1] && q.priorityComparer == Reversed(IntCompare)
    ensures EnqueueIndex(q, 3) == 1
  {
    ReversedComparerLaws();
    var cmp := q.priorityComparer;
    assert q.priorities[0] == 5 && q.priorities[1] == 1;
    assert cmp(5, 1) == IntCompare(1, 5) == -1;
    assert cmp(3, 5) == IntCompare(5, 3) == 1 && cmp(3, 1) == IntCompare(1, 3) == -1;
    assert Sorted(q);
    var i, p0, p1 := EnqueueIndex(q, 3), q.priorities[0], q.priorities[1];
    assert i == 0 ==> cmp(3, p0) <= 0;
    assert i == 2 ==> cmp(3, p1) > 0;
  }

  lemma ReversedComparerLaws()
    ensures IsComparer(Reversed(IntCompare))
  {
    IntCompareIsComparer();
    ReversedIsComparer(IntCompare);
  }
}

=== FILE: ring_buffer.dfy ===
/** `RingBuffer<T>`: a growable circular deque over one backing array. The
    buffer's state is the backing array `items`, the physical slot `startIndex`
    of the first item, the item `count` and the mutation `version`. Logical
    index `k` lives in physical slot `(startIndex + k) % Capacity`; the logical
    sequence is `Elements(b)`. Every operation returns the new state. */
module RingBuffers {
  import opened Common
  import opened Comparers
  import MathUtils
  import ArrayUtils
  import CollectionUtils

  datatype RingBuffer<T> = RingBuffer(items: seq<T>, startIndex: int, count: int, version: int)

  function Capacity<T>(b: RingBuffer<T>): nat {
    |b.items|
  }

  /** The class invariant: `0 <= count <= Capacity`, and `startIndex` is a slot
      of the array (or 0 when the array is empty). */
  predicate Valid<T>(b: RingBuffer<T>) {
    && 0 <= b.count <= |b.items|
    && 0 <= b.startIndex
    && (b.startIndex < |b.items| || b.startIndex == 0)
  }

  /** The physical slot of logical index `k`, for `0 <= k <= Capacity`: the
      start plus `k`, wrapped at most once. */
  function Slot<T>(b: RingBuffer<T>, k: int): int {
    if b.startIndex + k < |b.items| then b.startIndex + k else b.startIndex + k - |b.items|
  }

  /** The logical index of physical slot `p`: the inverse of `Slot`. */
  function Offset<T>(b: RingBuffer<T>, p: int): int {
    if p >= b.startIndex then p - b.startIndex else p - b.startIndex + |b.items|
  }

  /** The logical sequence the buffer holds. */
  function Elements<T>(b: RingBuffer<T>): seq<T>
    requires Valid(b)
  {
    seq(b.count, k requires 0 <= k < b.count => b.items[Slot(b, k)])
  }

  /** No slot outside the logical window holds anything but `dflt`, C#'s
      `default(T)`: removed items are not retained. */
  ghost predicate Clean<T>(b: RingBuffer<T>, dflt: T) {
    forall p :: 0 <= p < |b.items| && Offset(b, p) >= b.count ==> b.items[p] == dflt
  }

  /** The two index maps are inverse on `[0, Capacity)`. */
  lemma SlotOffsetInverse<T>(b: RingBuffer<T>)
    requires Valid(b)
    ensures forall k :: 0 <= k < |b.items| ==> 0 <= Slot(b, k) < |b.items| && Offset(b, Slot(b, k)) == k
    ensures forall p :: 0 <= p < |b.items| ==> 0 <= Offset(b, p) < |b.items| && Slot(b, Offset(b, p)) == p
  {
  }

  /** `ToItemIndex(listIndex)`: `(startIndex + listIndex) % items.Length` with
      C#'s remainder, which is the once-wrapped slot. */
  function ToItemIndex<T>(b: RingBuffer<T>, listIndex: int): (r: int)
    requires Valid(b) && |b.items| > 0
    requires 0 <= listIndex <= b.count
    ensures r == Slot(b, listIndex)
    ensures 0 <= r < |b.items|
  {
    var v := b.startIndex + listIndex;
    if v < |b.items| then
      MathUtils.DivisionUnique(v, |b.items|, 0, v);
      MathUtils.CsRem(v, |b.items|)
    else
      MathUtils.DivisionUnique(v, |b.items|, 1, v - |b.items|);
      MathUtils.CsRem(v, |b.items|)
  }

  /** The constructor `RingBuffer(capacity)`; `RingBuffer()` is capacity 0. */
  function New<T>(capacity: int, dflt: T): (r: Result<RingBuffer<T>>)
    ensures r.Ok? <==> capacity >= 0
    ensures r.Err? ==> r.error == ArgumentOutOfRange("capacity")
    ensures r.Ok? ==> Valid(r.value) && Capacity(r.value) == capacity && Elements(r.value) == []
    ensures r.Ok? ==> Clean(r.value, dflt)
  {
    if capacity < 0 then
      Err(ArgumentOutOfRange("capacity"))
    else if capacity > 0 then
      Ok(RingBuffer(seq(capacity, _ => dflt), 0, 0, 0))
    else
      Ok(RingBuffer(ArrayUtils.GetEmpty(), 0, 0, 0))
  }

  /** `IncrementCount()`: one more item, one more version. */
  function IncrementCount<T>(b: RingBuffer<T>): (r: RingBuffer<T>)
    ensures r.items == b.items && r.startIndex == b.startIndex && r.count == b.count + 1
    ensures r.version == NextVersion(b.version) && r.version != b.version
  {
    b.(count := b.count + 1, version := NextVersion(b.version))
  }

  /** When there was room, `IncrementCount` admits the slot after the window:
      the old sequence is a prefix of the new one. */
  lemma IncrementCountKeepsPrefix<T>(b: RingBuffer<T>)
    requires Valid(b) && b.count < |b.items|
    ensures Valid(IncrementCount(b)) && Elements(IncrementCount(b))[..b.count] == Elements(b)
  {
  }

  /** `DecrementCount()`: one item fewer, one more version. */
  function DecrementCount<T>(b: RingBuffer<T>): (r: RingBuffer<T>)
    ensures r.items == b.items && r.startIndex == b.startIndex && r.count == b.count - 1
    ensures r.version == NextVersion(b.version) && r.version != b.version
  {
    b.(count := b.count - 1, version := NextVersion(b.version))
  }

  /** `DecrementCount` drops the last item of a non-empty sequence. */
  lemma DecrementCountDropsLast<T>(b: RingBuffer<T>)
    requires Valid(b) && b.count > 0
    ensures Valid(DecrementCount(b)) && Elements(DecrementCount(b)) == Elements(b)[..b.count - 1]
  {
  }

  /** `SetItemBuffer(buffer)`: adopt a repacked array, starting at slot 0. */
  function SetItemBuffer<T>(b: RingBuffer<T>, buffer: seq<T>): (r: RingBuffer<T>)
    ensures r.items == buffer && r.startIndex == 0
    ensures r.count == b.count && r.version == b.version
  {
    b.(items := buffer, startIndex := 0)
  }

  /** After `SetItemBuffer` the sequence is the first `count` slots of the
      adopted array. */
  lemma SetItemBufferAdopts<T>(b: RingBuffer<T>, buffer: seq<T>)
    requires 0 <= b.count <= |buffer|
    ensures Valid(SetItemBuffer(b, buffer)) && Elements(SetItemBuffer(b, buffer)) == buffer[..b.count]
  {
  }

  /** `CreateHigherCapacityItemBuffer()`: a fresh all-default array with room
      for at least one more item. */
  function CreateHigherCapacityItemBuffer<T>(b: RingBuffer<T>, dflt: T): (r: seq<T>)
    requires Valid(b)
    ensures |r| == GrownCapacity(b.count) && |r| > b.count
    ensures forall p :: 0 <= p < |r| ==> r[p] == dflt
  {
    var capacity := if b.count == 0 then 4 else b.count * 2;
    seq(capacity, _ => dflt)
  }

  /** The `for (i = 0; i < length; ++i)` loop of `CopyToImpl`, from `i` on. */
  function CopyToLoop<T>(b: RingBuffer<T>, index: int, length: int, arr: seq<T>, arrayIndex: int, i: int): (r: seq<T>)
    requires Valid(b) && 0 <= index && 0 <= length && index + length <= b.count
    requires 0 <= arrayIndex && arrayIndex + length <= |arr|
    requires 0 <= i <= length
    ensures |r| == |arr|
    ensures forall p :: arrayIndex + i <= p < arrayIndex + length ==>
              r[p] == Elements(b)[index + (p - arrayIndex)]
    ensures forall p :: 0 <= p < |arr| && !(arrayIndex + i <= p < arrayIndex + length) ==> r[p] == arr[p]
    decreases length - i
  {
    if i < length then
      var itemIndex := ToItemIndex(b, i + index);
      CopyToLoop(b, index, length, arr[arrayIndex + i := b.items[itemIndex]], arrayIndex, i + 1)
    else
      arr
  }

  /** `CopyToImpl(index, length, array, arrayIndex)`: writes logical items
      `[index, index + length)` into `array` from `arrayIndex` on. */
  function CopyToImpl<T>(b: RingBuffer<T>, index: int, length: int, arr: seq<T>, arrayIndex: int): (r: seq<T>)
    requires Valid(b) && 0 <= index && 0 <= length && index + length <= b.count
    requires 0 <= arrayIndex && arrayIndex + length <= |arr|
    ensures |r| == |arr|
    ensures r[arrayIndex..arrayIndex + length] == Elements(b)[index..index + length]
    ensures forall p :: 0 <= p < |arr| && !(arrayIndex <= p < arrayIndex + length) ==> r[p] == arr[p]
  {
    var r := CopyToLoop(b, index, length, arr, arrayIndex, 0);
    var copied, source := r[arrayIndex..arrayIndex + length], Elements(b)[index..index + length];
    assert copied == source by {
      forall p | 0 <= p < length ensures copied[p] == source[p] {
        assert r[arrayIndex + p] == Elements(b)[index + p];
      }
    }
    r
  }

  /** `CopyTo(array, arrayIndex)`: validates, then copies the logical sequence
      out; a valid copy reproduces `Elements(b)` exactly. */
  function CopyTo<T>(b: RingBuffer<T>, arr: Option<seq<T>>, arrayIndex: int): (r: Result<seq<T>>)
    requires Valid(b)
    ensures r.Ok? <==> CollectionUtils.CheckCopyToArguments(arr, arrayIndex, b.count).Pass?
    ensures r.Err? ==> r.error == CollectionUtils.CheckCopyToArguments(arr, arrayIndex, b.count).error
    ensures r.Ok? ==> |r.value| == |arr.value|
    ensures r.Ok? ==> r.value[arrayIndex..arrayIndex + b.count] == Elements(b)
    ensures r.Ok? ==> forall p :: 0 <= p < |arr.value| && !(arrayIndex <= p < arrayIndex + b.count) ==>
                        r.value[p] == arr.value[p]
  {
    var check := CollectionUtils.CheckCopyToArguments(arr, arrayIndex, b.count);
    if check.Fail? then
      Err(check.error)
    else
      var r := CopyToImpl(b, 0, b.count, arr.value, arrayIndex);
      assert Elements(b)[0..b.count] == Elements(b);
      Ok(r)
  }

  /** The getter of the indexer `this[index]`. */
  function Get<T>(b: RingBuffer<T>, index: int): (r: Result<T>)
    requires Valid(b)
    ensures r.Ok? <==> 0 <= index < b.count
    ensures r.Err? ==> r.error == ArgumentOutOfRange("index")
    ensures r.Ok? ==> r.value == Elements(b)[index]
  {
    if index < 0 then
      Err(ArgumentOutOfRange("index"))
    else if index >= b.count then
      Err(ArgumentOutOfRange("index"))
    else
      var itemIndex := ToItemIndex(b, index);
      Ok(b.items[itemIndex])
  }

  /** The setter of the indexer: replaces one item in place. It is not a
      structural change, so `count`, `startIndex` and `version` stay. */
  function Set<T>(b: RingBuffer<T>, index: int, value: T): (r: Result<RingBuffer<T>>)
    requires Valid(b)
    ensures r.Ok? <==> 0 <= index < b.count
    ensures r.Err? ==> r.error == ArgumentOutOfRange("index")
    ensures r.Ok? ==> Valid(r.value) && Elements(r.value) == Elements(b)[index := value]
    ensures r.Ok? ==> Capacity(r.value) == Capacity(b) && r.value.count == b.count
    ensures r.Ok? ==> r.value.startIndex == b.startIndex && r.value.version == b.version
    ensures r.Ok? ==> forall p :: 0 <= p < |b.items| && Offset(b, p) >= b.count ==> r.value.items[p] == b.items[p]
  {
    if index < 0 then
      Err(ArgumentOutOfRange("index"))
    else if index >= b.count then
      Err(ArgumentOutOfRange("index"))
    else
      var itemIndex := ToItemIndex(b, index);
      var r := b.(items := b.items[itemIndex := value]);
      SlotOffsetInverse(b);
      assert Elements(r) == Elements(b)[index := value];
      Ok(r)
  }

  /** `AddLast(item)`, also `ICollection.Add` and the queue's `Enqueue`. When
      full, the items are repacked from slot 0 into a grown array. */
  function AddLast<T>(b: RingBuffer<T>, item: T, dflt: T): (r: RingBuffer<T>)
    requires Valid(b)
    ensures Valid(r) && Elements(r) == Elements(b) + [item]
    ensures r.version == NextVersion(b.version)
    ensures b.count < Capacity(b) ==> Capacity(r) == Capacity(b) && r.startIndex == b.startIndex
    ensures b.count == Capacity(b) ==> Capacity(r) == GrownCapacity(b.count) && r.startIndex == 0
    ensures Clean(b, dflt) ==> Clean(r, dflt)
  {
    if b.count == |b.items| then
      var items := CreateHigherCapacityItemBuffer(b, dflt);
      var items := CopyToImpl(b, 0, b.count, items, 0);
      var items := items[b.count := item];
      var r := IncrementCount(SetItemBuffer(b, items));
      RepackedLast(b, items, item, dflt);
      r
    else
      var itemIndex := ToItemIndex(b, b.count);
      var r := IncrementCount(b.(items := b.items[itemIndex := item]));
      FreeSlotFilled(b, r, item, dflt);
      r
  }

  /** The growing path of `AddLast`: the old items repacked from slot 0 and
      the new item right after them. */
  lemma RepackedLast<T>(b: RingBuffer<T>, items: seq<T>, item: T, dflt: T)
    requires Valid(b) && |items| > b.count && items[b.count] == item
    requires items[0..b.count] == Elements(b)
    requires forall p :: b.count + 1 <= p < |items| ==> items[p] == dflt
    ensures var r := RingBuffer(items, 0, b.count + 1, NextVersion(b.version));
            Valid(r) && Elements(r) == Elements(b) + [item] && Clean(r, dflt)
  {
    var r := RingBuffer(items, 0, b.count + 1, NextVersion(b.version));
    forall k | 0 <= k < b.count ensures Elements(r)[k] == Elements(b)[k] {
      assert items[k] == items[0..b.count][k];
    }
    assert Elements(r) == Elements(b) + [item];
  }

  /** The in-place path of `AddLast`: the free slot after the window takes the
      new item. */
  lemma FreeSlotFilled<T>(b: RingBuffer<T>, r: RingBuffer<T>, item: T, dflt: T)
    requires Valid(b) && b.count < |b.items|
    requires r == b.(items := b.items[Slot(b, b.count) := item], count := b.count + 1, version := r.version)
    ensures Valid(r) && Elements(r) == Elements(b) + [item]
    ensures Clean(b, dflt) ==> Clean(r, dflt)
  {
    SlotOffsetInverse(b);
    assert Elements(r) == Elements(b) + [item];
  }

  /** `AddFirst(item)`, also the stack's `Push`. The start moves one slot back
      (wrapping), or, when full, the items are repacked from slot 1 into a
      grown array and the new item goes to slot 0. */
  function AddFirst<T>(b: RingBuffer<T>, item: T, dflt: T): (r: RingBuffer<T>)
    requires Valid(b)
    ensures Valid(r) && Elements(r) == [item] + Elements(b)
    ensures r.version == NextVersion(b.version)
    ensures b.count < Capacity(b) ==> Capacity(r) == Capacity(b)
    ensures b.count == Capacity(b) ==> Capacity(r) == GrownCapacity(b.count) && r.startIndex == 0
    ensures Clean(b, dflt) ==> Clean(r, dflt)
  {
    if b.count == |b.items| then
      var items := CreateHigherCapacityItemBuffer(b, dflt);
      var items := CopyToImpl(b, 0, b.count, items, 1);
      var items := items[0 := item];
      var r := IncrementCount(SetItemBuffer(b, items));
      RepackedFirst(b, items, item, dflt);
      r
    else
      MathUtils.WrapNeighbours(|b.items|, b.startIndex);
      var startIndex := MathUtils.Wrap(|b.items|, b.startIndex - 1).value;
      var moved := b.(startIndex := startIndex);
      var r := IncrementCount(moved.(items := moved.items[startIndex := item]));
      StartMovedBack(b, r, item, dflt);
      r
  }

  /** The grown-array path of `AddFirst`: old items in slots `1..count`, the
      new one in slot 0. */
  lemma RepackedFirst<T>(b: RingBuffer<T>, items: seq<T>, item: T, dflt: T)
    requires Valid(b) && |items| > b.count && items[0] == item
    requires items[1..b.count + 1] == Elements(b)
    requires forall p :: b.count + 1 <= p < |items| ==> items[p] == dflt
    ensures var r := RingBuffer(items, 0, b.count + 1, NextVersion(b.version));
            Valid(r) && Elements(r) == [item] + Elements(b) && Clean(r, dflt)
  {
    var r := RingBuffer(items, 0, b.count + 1, NextVersion(b.version));
    forall k | 1 <= k <= b.count ensures Elements(r)[k] == Elements(b)[k - 1] {
      assert items[k] == items[1..b.count + 1][k - 1];
    }
    assert Elements(r) == [item] + Elements(b);
  }

  /** The in-place path of `AddFirst`: the start steps back one slot onto a free
      slot, which receives the new item. */
  lemma StartMovedBack<T>(b: RingBuffer<T>, r: RingBuffer<T>, item: T, dflt: T)
    requires Valid(b) && b.count < |b.items|
    requires r.startIndex == (if b.startIndex == 0 then |b.items| - 1 else b.startIndex - 1)
    requires r.items == b.items[r.startIndex := item] && r.count == b.count + 1
    ensures Valid(r) && Elements(r) == [item] + Elements(b)
    ensures Clean(b, dflt) ==> Clean(r, dflt)
  {
    assert forall k :: 1 <= k <= b.count ==> Slot(r, k) == Slot(b, k - 1);
    assert Elements(r) == [item] + Elements(b);
    assert forall p :: 0 <= p < |b.items| && p != r.startIndex ==> Offset(r, p) == Offset(b, p) + 1;
  }

  /** The tail-shifting loop of `Insert` when there is room:
      `for (i = count - 1; i >= index; --i)` moves logical item `i` one slot
      up, from `i` down, with `next` the slot of logical index `i + 1`. It
      returns the array and the slot left open for the new item. */
  function InsertShift<T>(b: RingBuffer<T>, index: int, a: seq<T>, i: int, next: int): (r: (seq<T>, int))
    requires Valid(b) && b.count < |b.items| && 0 <= index <= b.count
    requires index - 1 <= i <= b.count - 1 && |a| == |b.items|
    requires next == Slot(b, i + 1)
    requires forall k :: 0 <= k <= i ==> a[Slot(b, k)] == b.items[Slot(b, k)]
    requires forall k :: i + 1 < k <= b.count ==> a[Slot(b, k)] == b.items[Slot(b, k - 1)]
    requires forall p :: 0 <= p < |a| && Offset(b, p) > b.count ==> a[p] == b.items[p]
    ensures |r.0| == |b.items| && r.1 == Slot(b, index)
    ensures forall k :: 0 <= k < index ==> r.0[Slot(b, k)] == b.items[Slot(b, k)]
    ensures forall k :: index < k <= b.count ==> r.0[Slot(b, k)] == b.items[Slot(b, k - 1)]
    ensures forall p :: 0 <= p < |a| && Offset(b, p) > b.count ==> r.0[p] == b.items[p]
    decreases i - index + 1
  {
    if i >= index then
      var itemIndex := ToItemIndex(b, i);
      InsertStep(b, index, a, i);
      InsertShift(b, index, a[next := a[itemIndex]], i - 1, itemIndex)
    else
      (a, next)
  }

  /** One step of the shift up: moving logical item `i` into the hole at
      `i + 1` extends the shifted part by one and leaves the rest alone. */
  lemma InsertStep<T>(b: RingBuffer<T>, index: int, a: seq<T>, i: int)
    requires Valid(b) && b.count < |b.items| && 0 <= index <= i <= b.count - 1
    requires |a| == |b.items|
    requires forall k :: 0 <= k <= i ==> a[Slot(b, k)] == b.items[Slot(b, k)]
    requires forall k :: i + 1 < k <= b.count ==> a[Slot(b, k)] == b.items[Slot(b, k - 1)]
    requires forall p :: 0 <= p < |a| && Offset(b, p) > b.count ==> a[p] == b.items[p]
    ensures var a' := a[Slot(b, i + 1) := a[Slot(b, i)]];
            && (forall k :: 0 <= k <= i - 1 ==> a'[Slot(b, k)] == b.items[Slot(b, k)])
            && (forall k :: i < k <= b.count ==> a'[Slot(b, k)] == b.items[Slot(b, k - 1)])
            && (forall p :: 0 <= p < |a| && Offset(b, p) > b.count ==> a'[p] == b.items[p])
  {
    SlotOffsetInverse(b);
    var next := Slot(b, i + 1);
    assert forall k :: 0 <= k <= b.count && k != i + 1 ==> Slot(b, k) != next;
  }

  /** `Insert(index, item)`: throws unless `0 <= index <= count`; otherwise the
      item is placed before logical index `index`, growing and repacking when
      full and shifting the tail up one slot when not. */
  function Insert<T>(b: RingBuffer<T>, index: int, item: T, dflt: T): (r: Result<RingBuffer<T>>)
    requires Valid(b)
    ensures r.Ok? <==> 0 <= index <= b.count
    ensures r.Err? ==> r.error == ArgumentOutOfRange("index")
    ensures r.Ok? ==> Valid(r.value)
    ensures r.Ok? ==> Elements(r.value) == Elements(b)[..index] + [item] + Elements(b)[index..]
    ensures r.Ok? ==> r.value.version == NextVersion(b.version)
    ensures r.Ok? && b.count < Capacity(b) ==> Capacity(r.value) == Capacity(b) && r.value.startIndex == b.startIndex
    ensures r.Ok? && b.count == Capacity(b) ==> Capacity(r.value) == GrownCapacity(b.count) && r.value.startIndex == 0
    ensures r.Ok? ==> (Clean(b, dflt) ==> Clean(r.value, dflt))
  {
    if index < 0 then
      Err(ArgumentOutOfRange("index"))
    else if index > b.count then
      Err(ArgumentOutOfRange("index"))
    else if b.count == |b.items| then
      Ok(InsertGrown(b, index, item, dflt))
    else
      Ok(InsertInPlace(b, index, item, dflt))
  }

  /** The full-buffer path of `Insert`: both halves copied into a grown array
      around a gap at `index`, which takes the item. */
  function InsertGrown<T>(b: RingBuffer<T>, index: int, item: T, dflt: T): (r: RingBuffer<T>)
    requires Valid(b) && b.count == |b.items| && 0 <= index <= b.count
    ensures Valid(r) && Elements(r) == Elements(b)[..index] + [item] + Elements(b)[index..]
    ensures r.version == NextVersion(b.version)
    ensures Capacity(r) == GrownCapacity(b.count) && r.startIndex == 0
    ensures Clean(r, dflt)
  {
    var items := CreateHigherCapacityItemBuffer(b, dflt);
    var items := CopyToImpl(b, 0, index, items, 0);
    var items := CopyToImpl(b, index, b.count - index, items, index + 1);
    var items := items[index := item];
    RepackedAround(b, index, items, item, dflt);
    IncrementCount(SetItemBuffer(b, items))
  }

  /** The path of `Insert` with room to spare: the tail shifted up one slot
      and the item put into the slot left open. */
  function InsertInPlace<T>(b: RingBuffer<T>, index: int, item: T, dflt: T): (r: RingBuffer<T>)
    requires Valid(b) && b.count < |b.items| && 0 <= index <= b.count
    ensures Valid(r) && Elements(r) == Elements(b)[..index] + [item] + Elements(b)[index..]
    ensures r.version == NextVersion(b.version)
    ensures Capacity(r) == Capacity(b) && r.startIndex == b.startIndex
    ensures Clean(b, dflt) ==> Clean(r, dflt)
  {
    var itemIndexOfNext := ToItemIndex(b, b.count);
    var shifted := InsertShift(b, index, b.items, b.count - 1, itemIndexOfNext);
    var r := IncrementCount(b.(items := shifted.0[shifted.1 := item]));
    ShiftedOpen(b, index, shifted.0, r, item, dflt);
    r
  }

  /** The grown-array path of `Insert`. */
  lemma RepackedAround<T>(b: RingBuffer<T>, index: int, items: seq<T>, item: T, dflt: T)
    requires Valid(b) && 0 <= index <= b.count && |items| > b.count
    requires items[..index] == Elements(b)[..index] && items[index] == item
    requires items[index + 1..b.count + 1] == Elements(b)[index..]
    requires forall p :: b.count + 1 <= p < |items| ==> items[p] == dflt
    ensures var r := RingBuffer(items, 0, b.count + 1, NextVersion(b.version));
            Valid(r) && Elements(r) == Elements(b)[..index] + [item] + Elements(b)[index..] && Clean(r, dflt)
  {
    var r := RingBuffer(items, 0, b.count + 1, NextVersion(b.version));
    var s := Elements(b);
    forall k | 0 <= k <= b.count ensures Elements(r)[k] == (s[..index] + [item] + s[index..])[k] {
      if k < index {
        assert items[k] == items[..index][k];
      } else if k > index {
        assert items[k] == items[index + 1..b.count + 1][k - index - 1];
      }
    }
  }

  /** The in-place path of `Insert`: after the shift, the open slot receives
      the item. */
  lemma ShiftedOpen<T>(b: RingBuffer<T>, index: int, a: seq<T>, r: RingBuffer<T>, item: T, dflt: T)
    requires Valid(b) && b.count < |b.items| && 0 <= index <= b.count && |a| == |b.items|
    requires forall k :: 0 <= k < index ==> a[Slot(b, k)] == b.items[Slot(b, k)]
    requires forall k :: index < k <= b.count ==> a[Slot(b, k)] == b.items[Slot(b, k - 1)]
    requires forall p :: 0 <= p < |a| && Offset(b, p) > b.count ==> a[p] == b.items[p]
    requires r == RingBuffer(a[Slot(b, index) := item], b.startIndex, b.count + 1, NextVersion(b.version))
    ensures Valid(r) && Elements(r) == Elements(b)[..index] + [item] + Elements(b)[index..]
    ensures Clean(b, dflt) ==> Clean(r, dflt)
  {
    SlotOffsetInverse(b);
    var s := Elements(b);
    assert forall k :: 0 <= k <= b.count ==> Slot(r, k) == Slot(b, k);
    forall k | 0 <= k <= b.count ensures Elements(r)[k] == (s[..index] + [item] + s[index..])[k] {
      if k < index {
        assert Slot(b, k) != Slot(b, index);
      } else if k > index {
        assert Slot(b, k) != Slot(b, index);
      }
    }
  }

  /** The tail-shifting loop of `RemoveAtImpl`: `while (index < count)` moves
      logical item `j` one slot down, from `j` up, with `prev` the slot of
      logical index `j - 1`. It returns the array and the slot left vacant. */
  function RemoveShift<T>(b: RingBuffer<T>, index: int, a: seq<T>, j: int, prev: int): (r: (seq<T>, int))
    requires Valid(b) && 0 <= index < b.count
    requires index + 1 <= j <= b.count && |a| == |b.items|
    requires prev == Slot(b, j - 1)
    requires forall k :: 0 <= k < index ==> a[Slot(b, k)] == b.items[Slot(b, k)]
    requires forall k :: index <= k < j - 1 ==> a[Slot(b, k)] == b.items[Slot(b, k + 1)]
    requires forall k :: j - 1 <= k < b.count ==> a[Slot(b, k)] == b.items[Slot(b, k)]
    requires forall p :: 0 <= p < |a| && Offset(b, p) >= b.count ==> a[p] == b.items[p]
    ensures |r.0| == |b.items| && r.1 == Slot(b, b.count - 1)
    ensures forall k :: 0 <= k < index ==> r.0[Slot(b, k)] == b.items[Slot(b, k)]
    ensures forall k :: index <= k < b.count - 1 ==> r.0[Slot(b, k)] == b.items[Slot(b, k + 1)]
    ensures forall p :: 0 <= p < |a| && Offset(b, p) >= b.count ==> r.0[p] == b.items[p]
    decreases b.count - j
  {
    if j < b.count then
      var itemIndex := ToItemIndex(b, j);
      var a' := a[prev := a[itemIndex]];
      RemoveStep(b, index, a, j);
      RemoveShift(b, index, a', j + 1, itemIndex)
    else
      (a, prev)
  }

  /** One iteration of the `RemoveAtImpl` loop keeps its invariant. */
  lemma RemoveStep<T>(b: RingBuffer<T>, index: int, a: seq<T>, j: int)
    requires Valid(b) && 0 <= index < b.count
    requires index + 1 <= j < b.count && |a| == |b.items|
    requires forall k :: 0 <= k < index ==> a[Slot(b, k)] == b.items[Slot(b, k)]
    requires forall k :: index <= k < j - 1 ==> a[Slot(b, k)] == b.items[Slot(b, k + 1)]
    requires forall k :: j - 1 <= k < b.count ==> a[Slot(b, k)] == b.items[Slot(b, k)]
    requires forall p :: 0 <= p < |a| && Offset(b, p) >= b.count ==> a[p] == b.items[p]
    ensures var a' := a[Slot(b, j - 1) := a[Slot(b, j)]];
            && (forall k :: 0 <= k < index ==> a'[Slot(b, k)] == b.items[Slot(b, k)])
            && (forall k :: index <= k < j ==> a'[Slot(b, k)] == b.items[Slot(b, k + 1)])
            && (forall k :: j <= k < b.count ==> a'[Slot(b, k)] == b.items[Slot(b, k)])
            && (forall p :: 0 <= p < |a| && Offset(b, p) >= b.count ==> a'[p] == b.items[p])
  {
    SlotOffsetInverse(b);
    var prev := Slot(b, j - 1);
    assert forall k :: 0 <= k < b.count && k != j - 1 ==> Slot(b, k) != prev;
  }

  /** `RemoveAtImpl(index)`: closes the gap at logical `index` by shifting the
      tail down and resets the vacated slot to `default(T)`. */
  function RemoveAtImpl<T>(b: RingBuffer<T>, index: int, dflt: T): (r: RingBuffer<T>)
    requires Valid(b) && 0 <= index < b.count
    ensures Valid(r) && Elements(r) == Elements(b)[..index] + Elements(b)[index + 1..]
    ensures r.version == NextVersion(b.version)
    ensures Capacity(r) == Capacity(b) && r.startIndex == b.startIndex
    ensures r.items[Slot(b, b.count - 1)] == dflt
    ensures Clean(b, dflt) ==> Clean(r, dflt)
  {
    var previousItemIndex := ToItemIndex(b, index);
    var shifted := RemoveShift(b, index, b.items, index + 1, previousItemIndex);
    var r := DecrementCount(b.(items := shifted.0[shifted.1 := dflt]));
    ShiftedClosed(b, index, shifted.0, r, dflt);
    r
  }

  lemma ShiftedClosed<T>(b: RingBuffer<T>, index: int, a: seq<T>, r: RingBuffer<T>, dflt: T)
    requires Valid(b) && 0 <= index < b.count && |a| == |b.items|
    requires forall k :: 0 <= k < index ==> a[Slot(b, k)] == b.items[Slot(b, k)]
    requires forall k :: index <= k < b.count - 1 ==> a[Slot(b, k)] == b.items[Slot(b, k + 1)]
    requires forall p :: 0 <= p < |a| && Offset(b, p) >= b.count ==> a[p] == b.items[p]
    requires r == RingBuffer(a[Slot(b, b.count - 1) := dflt], b.startIndex, b.count - 1, NextVersion(b.version))
    ensures Valid(r) && Elements(r) == Elements(b)[..index] + Elements(b)[index + 1..]
    ensures Clean(b, dflt) ==> Clean(r, dflt)
  {
    SlotOffsetInverse(b);
    var s := Elements(b);
    assert forall k :: 0 <= k < b.count ==> Slot(r, k) == Slot(b, k);
    forall k | 0 <= k < b.count - 1 ensures Elements(r)[k] == (s[..index] + s[index + 1..])[k] {
      assert Slot(b, k) != Slot(b, b.count - 1);
    }
  }

  /** `RemoveAt(index)`: throws unless `0 <= index < count`. */
  function RemoveAt<T>(b: RingBuffer<T>, index: int, dflt: T): (r: Result<RingBuffer<T>>)
    requires Valid(b)
    ensures r.Ok? <==> 0 <= index < b.count
    ensures r.Err? ==> r.error == ArgumentOutOfRange("index")
    ensures r.Ok? ==> Valid(r.value) && Elements(r.value) == Elements(b)[..index] + Elements(b)[index + 1..]
    ensures r.Ok? ==> r.value.version == NextVersion(b.version) && Capacity(r.value) == Capacity(b)
    ensures r.Ok? ==> r.value.startIndex == b.startIndex && r.value.items[Slot(b, b.count - 1)] == dflt
    ensures r.Ok? ==> (Clean(b, dflt) ==> Clean(r.value, dflt))
  {
    if index < 0 then
      Err(ArgumentOutOfRange("index"))
    else if index >= b.count then
      Err(ArgumentOutOfRange("index"))
    else
      Ok(RemoveAtImpl(b, index, dflt))
  }

  /** `IndexOf(item, comparer)`: the smallest logical index whose item matches,
      or -1; a null comparer means the default equality. */
  method IndexOf<T(==)>(b: RingBuffer<T>, item: T, comparer: Option<Equality<T>>) returns (r: int)
    requires Valid(b)
    ensures -1 <= r < b.count
    ensures r >= 0 ==> Matches(comparer, item, Elements(b)[r])
    ensures forall k :: 0 <= k < b.count && (r < 0 || k < r) ==> !Matches(comparer, item, Elements(b)[k])
    ensures r == FirstMatch(Elements(b), item, comparer)
  {
    var i := 0;
    while i < b.count
      invariant 0 <= i <= b.count
      invariant forall k :: 0 <= k < i ==> !Matches(comparer, item, Elements(b)[k])
    {
      var itemIndex := ToItemIndex(b, i);
      var value := b.items[itemIndex];
      if Matches(comparer, item, value) {
        FirstMatchUnique(Elements(b), item, comparer, i);
        return i;
      }
      i := i + 1;
    }
    FirstMatchUnique(Elements(b), item, comparer, -1);
    return -1;
  }

  /** `Contains(item, comparer)`: whether some item matches. */
  method Contains<T(==)>(b: RingBuffer<T>, item: T, comparer: Option<Equality<T>>) returns (found: bool)
    requires Valid(b)
    ensures found <==> exists k :: 0 <= k < b.count && Matches(comparer, item, Elements(b)[k])
  {
    var index := IndexOf(b, item, comparer);
    found := index >= 0;
  }

  /** `Remove(item, comparer)`: removes only the first matching item, if any,
      and reports whether there was one. */
  method Remove<T(==)>(b: RingBuffer<T>, item: T, comparer: Option<Equality<T>>, dflt: T)
    returns (found: bool, r: RingBuffer<T>)
    requires Valid(b)
    ensures found <==> exists k :: 0 <= k < b.count && Matches(comparer, item, Elements(b)[k])
    ensures !found ==> r == b
    ensures found ==> var i := FirstMatch(Elements(b), item, comparer);
              && Valid(r) && Elements(r) == Elements(b)[..i] + Elements(b)[i + 1..]
              && r.version == NextVersion(b.version) && Capacity(r) == Capacity(b)
    ensures Clean(b, dflt) ==> Clean(r, dflt)
  {
    var i := 0;
    while i < b.count
      invariant 0 <= i <= b.count
      invariant forall k :: 0 <= k < i ==> !Matches(comparer, item, Elements(b)[k])
    {
      var itemIndex := ToItemIndex(b, i);
      var value := b.items[itemIndex];
      if Matches(comparer, item, value) {
        FirstMatchUnique(Elements(b), item, comparer, i);
        return true, RemoveAtImpl(b, i, dflt);
      }
      i := i + 1;
    }
    return false, b;
  }

  /** `Clear()`: resets every occupied slot to `default(T)` and empties the
      buffer; the capacity and the start slot stay. */
  method Clear<T>(b: RingBuffer<T>, dflt: T) returns (r: RingBuffer<T>)
    requires Valid(b)
    ensures Valid(r) && Elements(r) == []
    ensures Capacity(r) == Capacity(b) && r.startIndex == b.startIndex && r.version == NextVersion(b.version)
    ensures forall k :: 0 <= k < b.count ==> r.items[Slot(b, k)] == dflt
    ensures forall p :: 0 <= p < |b.items| && Offset(b, p) >= b.count ==> r.items[p] == b.items[p]
    ensures Clean(b, dflt) ==> Clean(r, dflt)
  {
    SlotOffsetInverse(b);
    var items := b.items;
    var i := 0;
    while i < b.count
      invariant 0 <= i <= b.count && |items| == |b.items|
      invariant forall k :: 0 <= k < i ==> items[Slot(b, k)] == dflt
      invariant forall p :: 0 <= p < |items| && Offset(b, p) >= i ==> items[p] == b.items[p]
    {
      var itemIndex := ToItemIndex(b, i);
      items := items[itemIndex := dflt];
      i := i + 1;
    }
    r := RingBuffer(items, b.startIndex, 0, NextVersion(b.version));
  }

  /** `PeekFirst()`: the first item; throws on an empty buffer. */
  function PeekFirst<T>(b: RingBuffer<T>): (r: Result<T>)
    requires Valid(b)
    ensures r.Ok? <==> b.count > 0
    ensures r.Err? ==> r.error == CollectionIsEmpty
    ensures r.Ok? ==> r.value == Elements(b)[0]
  {
    if b.count == 0 then Err(CollectionIsEmpty) else Ok(b.items[b.startIndex])
  }

  /** `TryPeekFirst(out result)`: `(false, default)` on an empty buffer. */
  function TryPeekFirst<T>(b: RingBuffer<T>, dflt: T): (r: (bool, T))
    requires Valid(b)
    ensures r.0 <==> b.count > 0
    ensures r.0 ==> r.1 == Elements(b)[0]
    ensures !r.0 ==> r.1 == dflt
  {
    if b.count > 0 then (true, b.items[b.startIndex]) else (false, dflt)
  }

  /** `PeekLast()`: the last item; throws on an empty buffer. */
  function PeekLast<T>(b: RingBuffer<T>): (r: Result<T>)
    requires Valid(b)
    ensures r.Ok? <==> b.count > 0
    ensures r.Err? ==> r.error == CollectionIsEmpty
    ensures r.Ok? ==> r.value == Elements(b)[b.count - 1]
  {
    if b.count == 0 then
      Err(CollectionIsEmpty)
    else
      var itemIndex := ToItemIndex(b, b.count - 1);
      Ok(b.items[itemIndex])
  }

  /** `TryPeekLast(out result)`: `(false, default)` on an empty buffer. */
  function TryPeekLast<T>(b: RingBuffer<T>, dflt: T): (r: (bool, T))
    requires Valid(b)
    ensures r.0 <==> b.count > 0
    ensures r.0 ==> r.1 == Elements(b)[b.count - 1]
    ensures !r.0 ==> r.1 == dflt
  {
    if b.count > 0 then
      var itemIndex := ToItemIndex(b, b.count - 1);
      (true, b.items[itemIndex])
    else
      (false, dflt)
  }

  /** `PopFirstImpl(out result)`: takes the first item, resets its slot to
      `default(T)` and moves the start one slot on (wrapping). */
  function PopFirstImpl<T>(b: RingBuffer<T>, dflt: T): (r: (T, RingBuffer<T>))
    requires Valid(b) && b.count > 0
    ensures r.0 == Elements(b)[0]
    ensures Valid(r.1) && Elements(r.1) == Elements(b)[1..]
    ensures r.1.version == NextVersion(b.version) && Capacity(r.1) == Capacity(b)
    ensures r.1.items[b.startIndex] == dflt
    ensures Clean(b, dflt) ==> Clean(r.1, dflt)
  {
    var result := b.items[b.startIndex];
    var cleared := b.(items := b.items[b.startIndex := dflt]);
    MathUtils.WrapNeighbours(|b.items|, b.startIndex);
    var moved := cleared.(startIndex := MathUtils.Wrap(|b.items|, b.startIndex + 1).value);
    var r := DecrementCount(moved);
    StartMovedOn(b, r, dflt);
    (result, r)
  }

  /** The start steps forward one slot past the vacated, cleared one. */
  lemma StartMovedOn<T>(b: RingBuffer<T>, r: RingBuffer<T>, dflt: T)
    requires Valid(b) && b.count > 0
    requires r.startIndex == (if b.startIndex + 1 == |b.items| then 0 else b.startIndex + 1)
    requires r.items == b.items[b.startIndex := dflt] && r.count == b.count - 1
    ensures Valid(r) && Elements(r) == Elements(b)[1..]
    ensures Clean(b, dflt) ==> Clean(r, dflt)
  {
    assert forall k :: 0 <= k < r.count ==> Slot(r, k) == Slot(b, k + 1);
    assert Elements(r) == Elements(b)[1..];
    assert forall p :: 0 <= p < |b.items| && p != b.startIndex ==> Offset(r, p) == Offset(b, p) - 1;
  }

  /** `PopFirst()`, also the queue's `Dequeue` and the stack's `Pop`. */
  function PopFirst<T>(b: RingBuffer<T>, dflt: T): (r: Result<(T, RingBuffer<T>)>)
    requires Valid(b)
    ensures r.Ok? <==> b.count > 0
    ensures r.Err? ==> r.error == CollectionIsEmpty
    ensures r.Ok? ==> Valid(r.value.1) && r.value.1.version == NextVersion(b.version)
    ensures r.Ok? ==> [r.value.0] + Elements(r.value.1) == Elements(b)
    ensures r.Ok? ==> Capacity(r.value.1) == Capacity(b) && r.value.1.items[b.startIndex] == dflt
    ensures r.Ok? ==> (Clean(b, dflt) ==> Clean(r.value.1, dflt))
  {
    if b.count == 0 then Err(CollectionIsEmpty) else Ok(PopFirstImpl(b, dflt))
  }

  /** `TryPopFirst(out result)`: `(false, default)` and no change when empty. */
  function TryPopFirst<T>(b: RingBuffer<T>, dflt: T): (r: (bool, T, RingBuffer<T>))
    requires Valid(b)
    ensures r.0 <==> b.count > 0
    ensures !r.0 ==> r.1 == dflt && r.2 == b
    ensures r.0 ==> Valid(r.2) && r.2.version == NextVersion(b.version)
    ensures r.0 ==> [r.1] + Elements(r.2) == Elements(b)
    ensures r.0 ==> Capacity(r.2) == Capacity(b) && r.2.items[b.startIndex] == dflt
    ensures r.0 ==> (Clean(b, dflt) ==> Clean(r.2, dflt))
  {
    if b.count > 0 then
      var (result, r) := PopFirstImpl(b, dflt);
      (true, result, r)
    else
      (false, dflt, b)
  }

  /** `PopLastImpl(out result)`: takes the last item and resets its slot. */
  function PopLastImpl<T>(b: RingBuffer<T>, dflt: T): (r: (T, RingBuffer<T>))
    requires Valid(b) && b.count > 0
    ensures r.0 == Elements(b)[b.count - 1]
    ensures Valid(r.1) && Elements(r.1) == Elements(b)[..b.count - 1]
    ensures r.1.version == NextVersion(b.version) && Capacity(r.1) == Capacity(b) && r.1.startIndex == b.startIndex
    ensures r.1.items[Slot(b, b.count - 1)] == dflt
    ensures Clean(b, dflt) ==> Clean(r.1, dflt)
  {
    var itemIndex := ToItemIndex(b, b.count - 1);
    var result := b.items[itemIndex];
    var r := DecrementCount(b.(items := b.items[itemIndex := dflt]));
    SlotOffsetInverse(b);
    assert Elements(r) == Elements(b)[..b.count - 1];
    (result, r)
  }

  /** `PopLast()`: throws on an empty buffer. */
  function PopLast<T>(b: RingBuffer<T>, dflt: T): (r: Result<(T, RingBuffer<T>)>)
    requires Valid(b)
    ensures r.Ok? <==> b.count > 0
    ensures r.Err? ==> r.error == CollectionIsEmpty
    ensures r.Ok? ==> Valid(r.value.1) && r.value.1.version == NextVersion(b.version)
    ensures r.Ok? ==> Elements(r.value.1) + [r.value.0] == Elements(b)
    ensures r.Ok? ==> Capacity(r.value.1) == Capacity(b) && r.value.1.startIndex == b.startIndex
    ensures r.Ok? ==> r.value.1.items[Slot(b, b.count - 1)] == dflt
    ensures r.Ok? ==> (Clean(b, dflt) ==> Clean(r.value.1, dflt))
  {
    if b.count == 0 then Err(CollectionIsEmpty) else Ok(PopLastImpl(b, dflt))
  }

  /** `TryPopLast(out result)`: `(false, default)` and no change when empty. */
  function TryPopLast<T>(b: RingBuffer<T>, dflt: T): (r: (bool, T, RingBuffer<T>))
    requires Valid(b)
    ensures r.0 <==> b.count > 0
    ensures !r.0 ==> r.1 == dflt && r.2 == b
    ensures r.0 ==> Valid(r.2) && r.2.version == NextVersion(b.version)
    ensures r.0 ==> Elements(r.2) + [r.1] == Elements(b)
    ensures r.0 ==> Capacity(r.2) == Capacity(b) && r.2.startIndex == b.startIndex
    ensures r.0 ==> r.2.items[Slot(b, b.count - 1)] == dflt
    ensures r.0 ==> (Clean(b, dflt) ==> Clean(r.2, dflt))
  {
    if b.count > 0 then
      var (result, r) := PopLastImpl(b, dflt);
      (true, result, r)
    else
      (false, dflt, b)
  }

  /** `RingBuffer<T>.Enumerator`: a cursor and the buffer version it was
      created against. */
  datatype Enumerator = Enumerator(index: int, version: int)

  /** `GetEnumerator()`: positioned before the first item; draining it yields
      the logical sequence. */
  function GetEnumerator<T>(b: RingBuffer<T>): (e: Enumerator)
    requires Valid(b)
    ensures e.index == -1 && e.version == b.version
    ensures Drain(b, e) == Ok(Elements(b))
  {
    Enumerator(-1, b.version)
  }

  /** `MoveNext()`: throws once the buffer has been mutated since the
      enumerator was created or reset; otherwise steps on and reports whether
      it still points at an item. */
  function MoveNext<T>(b: RingBuffer<T>, e: Enumerator): (r: Result<(bool, Enumerator)>)
    requires Valid(b)
    ensures r.Err? <==> e.version != b.version
    ensures r.Err? ==> r.error == CollectionContentsHaveChanged
    ensures r.Ok? ==> r.value.1 == Enumerator(e.index + 1, e.version)
    ensures r.Ok? ==> (r.value.0 <==> e.index + 1 < b.count)
  {
    if e.version != b.version then
      Err(CollectionContentsHaveChanged)
    else
      var index := e.index + 1;
      Ok((index < b.count, Enumerator(index, e.version)))
  }

  /** `Current`: the item at the cursor, once `MoveNext` returned true. */
  function Current<T>(b: RingBuffer<T>, e: Enumerator): (r: T)
    requires Valid(b) && 0 <= e.index < b.count
    ensures r == Elements(b)[e.index]
  {
    var itemIndex := ToItemIndex(b, e.index);
    b.items[itemIndex]
  }

  /** `Reset()`: back before the first item, re-bound to the current version. */
  function Reset<T>(b: RingBuffer<T>, e: Enumerator): (r: Enumerator)
    requires Valid(b)
    ensures r == GetEnumerator(b)
    ensures Drain(b, r) == Ok(Elements(b))
  {
    Enumerator(-1, b.version)
  }

  /** What a `foreach` over the enumerator yields: `Current` after every
      `MoveNext` that returns true, or the exception `MoveNext` throws. */
  function Drain<T>(b: RingBuffer<T>, e: Enumerator): (r: Result<seq<T>>)
    requires Valid(b) && e.index >= -1
    ensures r.Ok? <==> e.version == b.version
    ensures r.Err? ==> r.error == CollectionContentsHaveChanged
    ensures r.Ok? ==> r.value == Elements(b)[if e.index + 1 < b.count then e.index + 1 else b.count..]
    decreases b.count - e.index
  {
    match MoveNext(b, e)
    case Err(error) => Err(error)
    case Ok((more, next)) =>
      if !more then
        Ok([])
      else
        var rest := Drain(b, next);
        if rest.Err? then rest else Ok([Current(b, next)] + rest.value)
  }

  /** Any mutation bumps the version, so every enumerator taken before it
      throws on its next `MoveNext`. */
  lemma MutationInvalidatesEnumerator<T>(b: RingBuffer<T>, item: T, dflt: T, e: Enumerator)
    requires Valid(b) && e == GetEnumerator(b)
    ensures MoveNext(AddLast(b, item, dflt), e) == Err(CollectionContentsHaveChanged)
    ensures MoveNext(AddFirst(b, item, dflt), e) == Err(CollectionContentsHaveChanged)
    ensures b.count > 0 ==> MoveNext(PopFirstImpl(b, dflt).1, e) == Err(CollectionContentsHaveChanged)
    ensures b.count > 0 ==> MoveNext(PopLastImpl(b, dflt).1, e) == Err(CollectionContentsHaveChanged)
  {
  }

  /** A buffer of capacity 2 given 1, 2 and 3 at the back grows to capacity 4
      and holds 1, 2, 3; popping the front then returns 1 and leaves 2, 3. */
  lemma GrowThenPopScenario()
    ensures var b0 := New(2, 0).value;
            var b3 := AddLast(AddLast(AddLast(b0, 1, 0), 2, 0), 3, 0);
            && Valid(b3) && Capacity(b3) == 4 && Elements(b3) == [1, 2, 3]
            && PopFirst(b3, 0).Ok?
            && PopFirst(b3, 0).value.0 == 1
            && Elements(PopFirst(b3, 0).value.1) == [2, 3]
  {
    var b0 := New(2, 0).value;
    var b1 := AddLast(b0, 1, 0);
    var b2 := AddLast(b1, 2, 0);
    var b3 := AddLast(b2, 3, 0);
    assert Elements(b3) == [1, 2, 3];
    var popped := PopFirst(b3, 0).value;
    assert [popped.0] + Elements(popped.1) == [1, 2, 3];
    assert Elements(popped.1) == [1, 2, 3][1..];
  }

  /** `RemoveAt` undoes `Insert` at the same index, and the indexer sees the
      inserted item there. */
  lemma InsertThenRemoveAt<T>(b: RingBuffer<T>, index: int, item: T, dflt: T)
    requires Valid(b) && 0 <= index <= b.count
    ensures var r := Insert(b, index, item, dflt).value;
            && Get(r, index) == Ok(item)
            && RemoveAt(r, index, dflt).Ok?
            && Elements(RemoveAt(r, index, dflt).value) == Elements(b)
  {
    var r := Insert(b, index, item, dflt).value;
    SpliceOutUndoesSpliceIn(Elements(b), index, item, Elements(r));
  }

  /** Writing through the indexer and reading back: the written index shows
      the new value and every other index is unaffected. */
  lemma SetThenGet<T>(b: RingBuffer<T>, index: int, value: T, other: int)
    requires Valid(b) && 0 <= index < b.count
    ensures Get(Set(b, index, value).value, index) == Ok(value)
    ensures other != index ==> Get(Set(b, index, value).value, other) == Get(b, other)
  {
  }

  /** `PopLast` undoes `AddLast` and hands back the added item. */
  lemma AddLastThenPopLast<T>(b: RingBuffer<T>, item: T, dflt: T)
    requires Valid(b)
    ensures var r := PopLast(AddLast(b, item, dflt), dflt);
            r.Ok? && r.value.0 == item && Elements(r.value.1) == Elements(b)
  {
  }
}

=== FILE: ring_buffer_views.dfy ===
/** The ring buffer seen through the `IQueue<T>` and `IStack<T>` interfaces it
    implements explicitly: a queue enqueues at the back and dequeues at the
    front, a stack pushes and pops at the front. */
module RingBufferViews {
  import opened Common
  import opened RingBuffers

  /** `IQueue<T>.Enqueue(item)`: `AddLast`. */
  function Enqueue<T>(b: RingBuffer<T>, item: T, dflt: T): (r: RingBuffer<T>)
    requires Valid(b)
    ensures Valid(r) && Elements(r) == Elements(b) + [item]
    ensures r.version == NextVersion(b.version)
    ensures Clean(b, dflt) ==> Clean(r, dflt)
  {
    AddLast(b, item, dflt)
  }

  /** `IQueue<T>.Peek()`: the front item, which is the oldest one. */
  function QueuePeek<T>(b: RingBuffer<T>): (r: Result<T>)
    requires Valid(b)
    ensures r.Ok? <==> b.count > 0
    ensures r.Err? ==> r.error == CollectionIsEmpty
    ensures r.Ok? ==> r.value == Elements(b)[0]
  {
    PeekFirst(b)
  }

  /** `IQueue<T>.TryPeek(out result)`. */
  function QueueTryPeek<T>(b: RingBuffer<T>, dflt: T): (r: (bool, T))
    requires Valid(b)
    ensures r.0 <==> b.count > 0
    ensures r.0 ==> r.1 == Elements(b)[0]
    ensures !r.0 ==> r.1 == dflt
  {
    TryPeekFirst(b, dflt)
  }

  /** `IQueue<T>.Dequeue()`: `PopFirst`. */
  function Dequeue<T>(b: RingBuffer<T>, dflt: T): (r: Result<(T, RingBuffer<T>)>)
    requires Valid(b)
    ensures r.Ok? <==> b.count > 0
    ensures r.Err? ==> r.error == CollectionIsEmpty
    ensures r.Ok? ==> Valid(r.value.1) && [r.value.0] + Elements(r.value.1) == Elements(b)
    ensures r.Ok? ==> r.value.1.version == NextVersion(b.version)
    ensures r.Ok? ==> Capacity(r.value.1) == Capacity(b) && r.value.1.items[b.startIndex] == dflt
    ensures r.Ok? ==> (Clean(b, dflt) ==> Clean(r.value.1, dflt))
  {
    PopFirst(b, dflt)
  }

  /** `IQueue<T>.TryDequeue(out result)`: `TryPopFirst`. */
  function TryDequeue<T>(b: RingBuffer<T>, dflt: T): (r: (bool, T, RingBuffer<T>))
    requires Valid(b)
    ensures r.0 <==> b.count > 0
    ensures !r.0 ==> r.1 == dflt && r.2 == b
    ensures r.0 ==> Valid(r.2) && [r.1] + Elements(r.2) == Elements(b)
    ensures r.0 ==> r.2.version == NextVersion(b.version)
    ensures r.0 ==> Capacity(r.2) == Capacity(b) && r.2.items[b.startIndex] == dflt
    ensures r.0 ==> (Clean(b, dflt) ==> Clean(r.2, dflt))
  {
    TryPopFirst(b, dflt)
  }

  /** `IStack<T>.Push(item)`: `AddFirst`. */
  function Push<T>(b: RingBuffer<T>, item: T, dflt: T): (r: RingBuffer<T>)
    requires Valid(b)
    ensures Valid(r) && Elements(r) == [item] + Elements(b)
    ensures r.version == NextVersion(b.version)
    ensures Clean(b, dflt) ==> Clean(r, dflt)
  {
    AddFirst(b, item, dflt)
  }

  /** `IStack<T>.Peek()`: the front item, which is the newest one pushed. */
  function StackPeek<T>(b: RingBuffer<T>): (r: Result<T>)
    requires Valid(b)
    ensures r.Ok? <==> b.count > 0
    ensures r.Err? ==> r.error == CollectionIsEmpty
    ensures r.Ok? ==> r.value == Elements(b)[0]
  {
    PeekFirst(b)
  }

  /** `IStack<T>.TryPeek(out result)`. */
  function StackTryPeek<T>(b: RingBuffer<T>, dflt: T): (r: (bool, T))
    requires Valid(b)
    ensures r.0 <==> b.count > 0
    ensures r.0 ==> r.1 == Elements(b)[0]
    ensures !r.0 ==> r.1 == dflt
  {
    TryPeekFirst(b, dflt)
  }

  /** `IStack<T>.Pop()`: `PopFirst`. */
  function Pop<T>(b: RingBuffer<T>, dflt: T): (r: Result<(T, RingBuffer<T>)>)
    requires Valid(b)
    ensures r.Ok? <==> b.count > 0
    ensures r.Err? ==> r.error == CollectionIsEmpty
    ensures r.Ok? ==> Valid(r.value.1) && [r.value.0] + Elements(r.value.1) == Elements(b)
    ensures r.Ok? ==> r.value.1.version == NextVersion(b.version)
    ensures r.Ok? ==> Capacity(r.value.1) == Capacity(b) && r.value.1.items[b.startIndex] == dflt
    ensures r.Ok? ==> (Clean(b, dflt) ==> Clean(r.value.1, dflt))
  {
    PopFirst(b, dflt)
  }

  /** `IStack<T>.TryPop(out result)`: `TryPopFirst`. */
  function TryPop<T>(b: RingBuffer<T>, dflt: T): (r: (bool, T, RingBuffer<T>))
    requires Valid(b)
    ensures r.0 <==> b.count > 0
    ensures !r.0 ==> r.1 == dflt && r.2 == b
    ensures r.0 ==> Valid(r.2) && [r.1] + Elements(r.2) == Elements(b)
    ensures r.0 ==> r.2.version == NextVersion(b.version)
    ensures r.0 ==> Capacity(r.2) == Capacity(b) && r.2.items[b.startIndex] == dflt
    ensures r.0 ==> (Clean(b, dflt) ==> Clean(r.2, dflt))
  {
    TryPopFirst(b, dflt)
  }

  /** Enqueue every item of `xs` in order. */
  function EnqueueAll<T>(b: RingBuffer<T>, xs: seq<T>, dflt: T): (r: RingBuffer<T>)
    requires Valid(b)
    ensures Valid(r) && Elements(r) == Elements(b) + xs
    decreases |xs|
  {
    if |xs| == 0 then
      b
    else
      var r := EnqueueAll(Enqueue(b, xs[0], dflt), xs[1..], dflt);
      assert Elements(b) + xs == Elements(b) + [xs[0]] + xs[1..];
      r
  }

  /** Push every item of `xs` in order. */
  function PushAll<T>(b: RingBuffer<T>, xs: seq<T>, dflt: T): (r: RingBuffer<T>)
    requires Valid(b)
    ensures Valid(r) && Elements(r) == ReverseSeq(xs) + Elements(b)
    decreases |xs|
  {
    if |xs| == 0 then
      b
    else
      var pushed := Push(b, xs[0], dflt);
      var r := PushAll(pushed, xs[1..], dflt);
      ReverseSeqSnoc(xs, Elements(b));
      r
  }

  /** The items `Dequeue` returns until the queue is empty. */
  function DequeueAll<T>(b: RingBuffer<T>, dflt: T): (r: seq<T>)
    requires Valid(b)
    ensures r == Elements(b)
    decreases b.count
  {
    if b.count == 0 then
      []
    else
      var (x, rest) := Dequeue(b, dflt).value;
      [x] + DequeueAll(rest, dflt)
  }

  /** The items `Pop` returns until the stack is empty. */
  function PopAll<T>(b: RingBuffer<T>, dflt: T): (r: seq<T>)
    requires Valid(b)
    ensures r == Elements(b)
    decreases b.count
  {
    if b.count == 0 then
      []
    else
      var (x, rest) := Pop(b, dflt).value;
      [x] + PopAll(rest, dflt)
  }

  /** First in, first out: draining an empty queue after enqueueing `xs`
      yields `xs` in the same order. */
  lemma QueueIsFirstInFirstOut<T>(b: RingBuffer<T>, xs: seq<T>, dflt: T)
    requires Valid(b) && b.count == 0
    ensures DequeueAll(EnqueueAll(b, xs, dflt), dflt) == xs
  {
    assert Elements(b) == [];
  }

  /** Last in, first out: draining an empty stack after pushing `xs` yields
      `xs` reversed. */
  lemma StackIsLastInFirstOut<T>(b: RingBuffer<T>, xs: seq<T>, dflt: T)
    requires Valid(b) && b.count == 0
    ensures PopAll(PushAll(b, xs, dflt), dflt) == ReverseSeq(xs)
  {
    assert Elements(b) == [];
  }

  /** A push followed by a pop gives back the pushed item and the previous
      contents. */
  lemma PushThenPop<T>(b: RingBuffer<T>, item: T, dflt: T)
    requires Valid(b)
    ensures var r := Pop(Push(b, item, dflt), dflt);
            r.Ok? && r.value.0 == item && Elements(r.value.1) == Elements(b)
  {
    var r := Pop(Push(b, item, dflt), dflt);
    assert [r.value.0] + Elements(r.value.1) == [item] + Elements(b);
    assert ([r.value.0] + Elements(r.value.1))[0] == r.value.0;
    assert ([r.value.0] + Elements(r.value.1))[1..] == Elements(r.value.1);
  }
}
